=== FILE: README.md ===
# Micro-Manager cores in Dafny

This project models three small, self-contained cores of Micro-Manager in Dafny and proves properties about them.

1. **The diSPIM autofocus sweep** (`AutofocusUtils.runFocus`). It covers:
   - the sweep geometry;
   - the two polling loops that wait for and score camera frames;
   - the `try`/`finally` that changes and restores the shutter, the auto-shutter, live mode and the SPIM cameras;
   - the choice of the best-scoring frame;
   - the pixel-type dispatch of `getIJType` and `makeProcessor`.
2. **The two-tier user profile** (`DefaultUserProfile`), in memory. It covers:
   - namespaced keys;
   - lookup through the user profile, then the global profile, then the fallback;
   - copy-on-write setters;
   - clearing and saving the keys of one class;
   - clearing the whole user profile;
   - the user-to-file mapping, with file-name allocation in `addUser`;
   - loading and switching users.
3. **The image scroller panel** (`ScrollerPanel`). It covers:
   - one scrollbar per datastore axis, each with a lock and an animation flag;
   - the listener that posts new image coordinates;
   - the handling of a newly arrived image;
   - animation stepping and the timer tasks' state updates.

## Layout

| file | module | contents |
|---|---|---|
| basics.dfy | `Basics` | `Option`/`Result`; Java `int` wrap-around and truncating remainder; decimal strings |
| af_sweep.dfy | `FocusSweep` | sweep positions (`real`), the first-maximum argmax |
| af_pixel.dfy | `PixelDispatch` | image tags, `getIJType`, the `makeProcessor` overloads |
| af_poll.dfy | `FramePolling` | the first-frame wait and the collection loop |
| af_run.dfy | `Autofocus` | devices, setup, `finally` cleanup, `runFocus` |
| user_profile.dfy | `UserProfile` | the in-memory profile store |
| scroller_axis.dfy | `ScrollerAxis` | scrollbar and per-axis state, step and rate arithmetic |
| scroller_panel.dfy | `ScrollerPanel` | the panel's handlers |

### Modelling choices

**Environment of the autofocus sweep.** Hardware and time are a finite trace of snapshots, one per loop check. Each snapshot is either `Observed` or a `DeviceFault`. An `Observed` snapshot carries:
- the frames that arrived;
- whether the camera is still running;
- the clock.

The environment names at most one throwing call of the setup and at most one of the cleanup. The focus score is a function parameter.

**JScrollBar.** A scrollbar is a `(value, maximum)` pair with minimum 0 and extent 1. `setValue` clamps the value into `[0, maximum)`, and raising the maximum leaves the value alone. A change of value reaches the panel's listener synchronously. The `shouldPostEvents_` flag therefore appears as an argument of the calls made while it is off.

**Panel events.** What the panel posts on the display's bus is appended to an event list.

## Model

| member | source | states |
|---|---|---|
| FocusSweep.PositionsAreEvenlySpaced | plugins/ASIdiSPIM/src/org/micromanager/asidispim/Utils/AutofocusUtils.java:254 | Consecutive sweep positions differ by exactly the step size. |
| FocusSweep.PositionsSymmetric | plugins/ASIdiSPIM/src/org/micromanager/asidispim/Utils/AutofocusUtils.java:94 | Positions `i` and `n-1-i` are symmetric about the centre. In particular the first and last positions add to twice the centre. |
| FocusSweep.SingleFrameAtCenter | plugins/ASIdiSPIM/src/org/micromanager/asidispim/Utils/AutofocusUtils.java:94 | A one-frame sweep starts at the centre and reports the centre. |
| FocusSweep.FiveFrameSweep | plugins/ASIdiSPIM/src/org/micromanager/asidispim/Utils/AutofocusUtils.java:254 | Five frames of step 2 about 100 sit at 96, 98, 100, 102 and 104. |
| FocusSweep.FirstMaxUnique | plugins/ASIdiSPIM/src/org/micromanager/asidispim/Utils/AutofocusUtils.java:243-250 | There is at most one first maximum, so the argmax is determined by the scores. |
| FocusSweep.HighestScoreIndex | plugins/ASIdiSPIM/src/org/micromanager/asidispim/Utils/AutofocusUtils.java:243-250 | Requires at least one score, since the first is read unconditionally. The index is in range, its score is at least every score, and it is strictly above every earlier score, so ties go to the smallest index. |
| FocusSweep.TieGoesToEarliest | plugins/ASIdiSPIM/src/org/micromanager/asidispim/Utils/AutofocusUtils.java:246 | With scores `[0.1, 0.9, 0.9, 0.3]` the strict comparison keeps index 1, the first of the tied maxima. |
| PixelDispatch.IJType | plugins/ASIdiSPIM/src/org/micromanager/asidispim/Utils/AutofocusUtils.java:308-329 | An `IJType` tag wins. Otherwise `PixelType` names one of the four types. A missing tag or an unknown name is an error. |
| PixelDispatch.PixelTypeRoundTrip | plugins/ASIdiSPIM/src/org/micromanager/asidispim/Utils/AutofocusUtils.java:313-321 | Tagging an image with a type's `PixelType` name (and no `IJType`) dispatches back to that type. |
| PixelDispatch.IJTypeTagTakesPrecedence | plugins/ASIdiSPIM/src/org/micromanager/asidispim/Utils/AutofocusUtils.java:310 | An `IJType` tag decides the type whatever else the tags say. |
| PixelDispatch.BlankProcessor | plugins/ASIdiSPIM/src/org/micromanager/asidispim/Utils/AutofocusUtils.java:294-306 | The four known types get a processor of that kind and size without pixels. Any other type gets null. |
| PixelDispatch.WrapPixels | plugins/ASIdiSPIM/src/org/micromanager/asidispim/Utils/AutofocusUtils.java:272-292 | Without pixels, the blank processor. With pixels, RGB is an error, the three grey types wrap the pixels, and any other type gives null. |
| PixelDispatch.FrameProcessor | plugins/ASIdiSPIM/src/org/micromanager/asidispim/Utils/AutofocusUtils.java:261-270 | A type error propagates. Missing width or height is a tag error. With the type, width and height all readable, the result is the dispatch on that type at that size with the frame's pixels, and a processor has the dispatched kind, the tagged size and the frame's pixels. |
| FramePolling.WaitFrom | plugins/ASIdiSPIM/src/org/micromanager/asidispim/Utils/AutofocusUtils.java:159-171 | The reference of the wait as a recursion over the trace. A still polling wait has consumed the whole trace. Any other outcome consumes at least the current check. A normal exit ends on a check that delivered frames. |
| FramePolling.WaitForFirstFrame | plugins/ASIdiSPIM/src/org/micromanager/asidispim/Utils/AutofocusUtils.java:159-171 | The loop equals `WaitFrom` from the start. Every check but the last found the buffer empty, and every check did if the wait is still polling. A device fault means a hardware error. Timing out means 5000 ms had passed at the last check. A normal exit means frames are queued within the time. |
| FramePolling.PopAndScore | plugins/ASIdiSPIM/src/org/micromanager/asidispim/Utils/AutofocusUtils.java:183-197 | The oldest frame is popped. Its score goes into slot `counter` exactly when it converts and the array has room. Otherwise the scores are untouched, and the error is the conversion error or, for a full array, a hardware error. |
| FramePolling.PopKeepsInvariant | plugins/ASIdiSPIM/src/org/micromanager/asidispim/Utils/AutofocusUtils.java:183-197 | A pop keeps the frames in arrival order and fills the slots in pop order. A full array only happens with `n` frames already scored. |
| FramePolling.CollectOnce | plugins/ASIdiSPIM/src/org/micromanager/asidispim/Utils/AutofocusUtils.java:179-202 | A device fault gives a hardware error. The loop exits normally if and only if its condition fails. It keeps polling if and only if the condition holds, the pop (if any) succeeds and the clock is within 5000 ms. Past the timeout it throws the timeout error, and a failed pop throws that pop's error. A running iteration pops exactly the oldest frame, if one is queued. |
| FramePolling.CollectOnceKeepsInvariant | plugins/ASIdiSPIM/src/org/micromanager/asidispim/Utils/AutofocusUtils.java:179-202 | While the loop goes on, no frame is lost or reordered and `done` is set exactly when the counter reaches the stack size. When it ends, the popped frames are a prefix of those delivered and the outcome has its reason. |
| FramePolling.CollectRun | plugins/ASIdiSPIM/src/org/micromanager/asidispim/Utils/AutofocusUtils.java:179-203 | The reference of the collection loop, one `CollectOnce` per snapshot until one ends the loop. A still polling run has consumed the whole trace. |
| FramePolling.StoppedRunStays | plugins/ASIdiSPIM/src/org/micromanager/asidispim/Utils/AutofocusUtils.java:179-203 | Once the loop has ended, later snapshots change nothing. |
| FramePolling.StillPollingRanInTime | plugins/ASIdiSPIM/src/org/micromanager/asidispim/Utils/AutofocusUtils.java:179-202 | A run still polling at the end of the trace ran every iteration with the loop condition true, no failed pop and the clock within 5000 ms. |
| FramePolling.StoppedCameraExits | plugins/ASIdiSPIM/src/org/micromanager/asidispim/Utils/AutofocusUtils.java:179-181 | A snapshot with the buffer empty and the camera stopped ends a still running loop normally, whatever follows. |
| FramePolling.StillPollingKeepsInvariant | plugins/ASIdiSPIM/src/org/micromanager/asidispim/Utils/AutofocusUtils.java:179-203 | A run still polling keeps the collection invariant over every frame the trace delivered. |
| FramePolling.StoppedRunFacts | plugins/ASIdiSPIM/src/org/micromanager/asidispim/Utils/AutofocusUtils.java:179-203 | A run that ended popped a prefix of the frames delivered, scored them in order, and ended for a reason the last consumed snapshot shows. |
| FramePolling.CollectScores | plugins/ASIdiSPIM/src/org/micromanager/asidispim/Utils/AutofocusUtils.java:176-203 | The loop equals `CollectRun` from a fresh array of `n` zero scores. Slot `k` holds the score of the k-th popped frame, and unfilled slots keep 0.0. The popped frames are a prefix of what arrived. The exit reason holds. |
| FramePolling.PollRun | plugins/ASIdiSPIM/src/org/micromanager/asidispim/Utils/AutofocusUtils.java:159-203 | The reference of both loops: the wait, then, after a normal exit, the collection from the frames the wait found. A still polling run has consumed the whole trace. |
| FramePolling.CollectedFacts | plugins/ASIdiSPIM/src/org/micromanager/asidispim/Utils/AutofocusUtils.java:176-203 | After a successful wait, the array keeps `n` slots and the popped frames are a prefix of the delivered ones. A normal exit needs a non-empty stack, and a short stack means the camera stopped after every delivered frame was scored. |
| FramePolling.PollFrames | plugins/ASIdiSPIM/src/org/micromanager/asidispim/Utils/AutofocusUtils.java:114-203 | The loops equal `PollRun`, so a still polling run has consumed the whole trace. The score array has `n` slots. A normal exit scores frames in pop order, and with a short stack it means the camera stopped after every delivered frame was scored. |
| Autofocus.RunSetup | plugins/ASIdiSPIM/src/org/micromanager/asidispim/Utils/AutofocusUtils.java:115-157 | The statement-by-statement setup equals the reference: a setting changes only if its call completed, a value captured for `finally` is the one read or `false` if never read, a throw is a hardware error, and a refused trigger fails the run. |
| Autofocus.RunCleanup | plugins/ASIdiSPIM/src/org/micromanager/asidispim/Utils/AutofocusUtils.java:208-238 | The `finally` block equals the reference: each restore takes effect exactly when it completes, the first throw stops the rest, and live mode is resumed only if it was on. |
| Autofocus.CleanupRetryCompletes | plugins/ASIdiSPIM/src/org/micromanager/asidispim/Utils/AutofocusUtils.java:208-234 | A full cleanup after an interrupted one ends where one full cleanup does, so the cleanup is idempotent. |
| Autofocus.SweepRestoresModes | plugins/ASIdiSPIM/src/org/micromanager/asidispim/Utils/AutofocusUtils.java:115-234 | After any setup, a full cleanup restores the auto-shutter and live mode and releases the SPIM cameras. The shutter is left as read at line 142, or closed if that read never happened. |
| Autofocus.RunFocus | plugins/ASIdiSPIM/src/org/micromanager/asidispim/Utils/AutofocusUtils.java:94-256 | A negative frame count fails before anything changes, with no cleanup, because the array allocation throws before the `try`. Every exit from inside the `try` runs the cleanup, and a completed cleanup restores the modes. Setup errors are reported before any polling. After a successful setup the outcome follows `PollRun`. A trace that ends while polling leaves the run pending with the whole trace consumed. A polling error is reported as that error. A normal exit gives the position of the first maximum among the in-order scores. |
| UserProfile.GenKey | mmstudio/src/org/micromanager/internal/utils/DefaultUserProfile.java:184-186 | The key is the class name, a colon, then the key, positionally. |
| UserProfile.GenKeyInjective | mmstudio/src/org/micromanager/internal/utils/DefaultUserProfile.java:184-186 | For colon-free class names, distinct (class, key) pairs give distinct keys. |
| UserProfile.Lookup | mmstudio/src/org/micromanager/internal/utils/DefaultUserProfile.java:196 | A typed read finds a value only when the key holds a value of the asked type. |
| UserProfile.Get | mmstudio/src/org/micromanager/internal/utils/DefaultUserProfile.java:193-210 | The result has the asked type. A user value of that type always wins. Without one, a global value of that type wins, and otherwise the fallback is returned. |
| UserProfile.Set | mmstudio/src/org/micromanager/internal/utils/DefaultUserProfile.java:231-235 | Only the user entry for the generated key changes. The global profile, the mapping and all other keys are unchanged. |
| UserProfile.SetThenGet | mmstudio/src/org/micromanager/internal/utils/DefaultUserProfile.java:193-235 | A get after a set returns the set value. |
| UserProfile.SetOtherUnchanged | mmstudio/src/org/micromanager/internal/utils/DefaultUserProfile.java:231-235 | A set leaves every other (class, key) reading as before. |
| UserProfile.GlobalShowsThrough | mmstudio/src/org/micromanager/internal/utils/DefaultUserProfile.java:201-207 | Without a user value, the global value is returned. |
| UserProfile.ProfileSubset | mmstudio/src/org/micromanager/internal/utils/DefaultUserProfile.java:397-410 | The saved subset is exactly the user entries whose key starts with the class name, with their values. |
| UserProfile.ClearProfileSubset | mmstudio/src/org/micromanager/internal/utils/DefaultUserProfile.java:492-504 | Clearing keeps exactly the entries whose key does not start with the class name, unchanged. |
| UserProfile.SubsetPartition | mmstudio/src/org/micromanager/internal/utils/DefaultUserProfile.java:401-407 | The saved subset and the cleared remainder are disjoint, and together they are the profile. |
| UserProfile.ClearReachesExtendedNames | mmstudio/src/org/micromanager/internal/utils/DefaultUserProfile.java:498 | A key of another class survives clearing if and only if that class's name does not extend the cleared one. |
| UserProfile.ClearOverreaches | mmstudio/src/org/micromanager/internal/utils/DefaultUserProfile.java:498 | Clearing `org.Foo` also removes the keys of `org.FooBar`. |
| UserProfile.ClearClassSubsetExact | mmstudio/src/org/micromanager/internal/utils/DefaultUserProfile.java:492-504 | Clearing by the full `class:` prefix removes a class's keys if and only if it is the cleared class. |
| UserProfile.ClearProfile | mmstudio/src/org/micromanager/internal/utils/DefaultUserProfile.java:509-511 | The user profile becomes empty. Nothing else changes. |
| UserProfile.ClearProfileFallsThrough | mmstudio/src/org/micromanager/internal/utils/DefaultUserProfile.java:509-511 | After clearing, every get returns the global value or the fallback. |
| UserProfile.UserNames | mmstudio/src/org/micromanager/internal/utils/DefaultUserProfile.java:453-459 | The user names are every mapped name except the global user. |
| UserProfile.ProfileIndexGroup | mmstudio/src/org/micromanager/internal/utils/DefaultUserProfile.java:464 | A match of `profile-(\d+).txt` has a digit group, followed by one non-terminator character and `txt`. |
| UserProfile.ProfileIndexGroupMatches | mmstudio/src/org/micromanager/internal/utils/DefaultUserProfile.java:464-468 | Every name of that shape matches, and the group is its digits. |
| UserProfile.UnescapedDotAcceptsAnySeparator | mmstudio/src/org/micromanager/internal/utils/DefaultUserProfile.java:464 | The unescaped dot lets `profile-123txt` match with group `12`. |
| UserProfile.JavaParseInt | mmstudio/src/org/micromanager/internal/utils/DefaultUserProfile.java:473 | A digit group parses if and only if its value fits in an `int`. |
| UserProfile.LargestIndex | mmstudio/src/org/micromanager/internal/utils/DefaultUserProfile.java:465-480 | The loop finds the largest parsed index among the mapped file names, or 0 if there is none. |
| UserProfile.ProfileFileNameGroup | mmstudio/src/org/micromanager/internal/utils/DefaultUserProfile.java:481 | The name built for `n` matches the pattern with group `n` in decimal. |
| UserProfile.NameAboveLargestIsFresh | mmstudio/src/org/micromanager/internal/utils/DefaultUserProfile.java:481-482 | The name one above the largest index is used by no mapped user. |
| UserProfile.AddUserAsWritten | mmstudio/src/org/micromanager/internal/utils/DefaultUserProfile.java:461-484 | With Java `int` parsing and addition, the new user gets `profile-(m+1).txt` from the largest index `m`. The name is fresh unless `m` is `Integer.MAX_VALUE`. |
| UserProfile.OverflowSharesFile | mmstudio/src/org/micromanager/internal/utils/DefaultUserProfile.java:474-481 | After `profile-2147483647.txt`, two new users are given the same file. |
| UserProfile.AddUser | mmstudio/src/org/micromanager/internal/utils/DefaultUserProfile.java:461-484 | Corrected allocation: one above the largest index, in unbounded arithmetic. The name is always fresh. |
| UserProfile.LoadUser | mmstudio/src/org/micromanager/internal/utils/DefaultUserProfile.java:114-125 | An unknown user is registered through `addUser` as written: its file is `profile-(m+1).txt` in `int` arithmetic from the largest index `m`, fresh unless `m` is `Integer.MAX_VALUE`, and its profile is empty. Other users keep their files. A known user gets its stored profile, or an empty one if the file is missing. |
| UserProfile.SetCurrentUser | mmstudio/src/org/micromanager/internal/utils/DefaultUserProfile.java:486-489 | The named user becomes current and is mapped afterwards. The global profile is unchanged. An unknown user starts empty and gets the file numbered one past the largest index in use, wrapped to an `int`; that file is fresh unless the largest index is `Integer.MAX_VALUE`. Every user already mapped keeps its file. A known user keeps its file and gets its stored profile, or an empty one if the file is missing. |
| UserProfile.Init | mmstudio/src/org/micromanager/internal/utils/DefaultUserProfile.java:37-42 | Both the global and the default user are mapped afterwards. The default user is current and listed among the user names, and the global user is not. Every user read from disk keeps its file. A global or default user missing from the mapping is added through `addUser` and starts with an empty profile. A mapped global or default user gets its stored profile, or an empty one if the file is missing. |
| ScrollerAxis.NewScrollbar | mmstudio/src/org/micromanager/display/internal/ScrollerPanel.java:169-170 | A scrollbar exists if and only if the length is at least 1. It starts at 0 with that maximum. |
| ScrollerAxis.GrowBar | mmstudio/src/org/micromanager/display/internal/ScrollerPanel.java:368-372 | The maximum is raised to `n` only when smaller, never lowered. The value stays. |
| ScrollerAxis.NewAxisState | mmstudio/src/org/micromanager/display/internal/ScrollerPanel.java:81-89 | A new axis is unanimated, unlocked and at cached index 0. |
| ScrollerAxis.Notice | mmstudio/src/org/micromanager/display/internal/ScrollerPanel.java:223-227 | The cache takes the scrollbar value. Nothing changes exactly when it already had that value. |
| ScrollerAxis.MoveAxis | mmstudio/src/org/micromanager/display/internal/ScrollerPanel.java:385 | The value is clamped into range and the cache follows. Moving to the current value changes nothing. |
| ScrollerAxis.AxisLength | mmstudio/src/org/micromanager/display/internal/ScrollerPanel.java:367 | `index + 1`, which wraps to `Integer.MIN_VALUE` at `Integer.MAX_VALUE`. |
| ScrollerAxis.AdvanceTarget | mmstudio/src/org/micromanager/display/internal/ScrollerPanel.java:431 | For non-negative operands without overflow, the target is `(value + offset) mod maximum`, in range. |
| ScrollerAxis.AdvanceWrapsAround | mmstudio/src/org/micromanager/display/internal/ScrollerPanel.java:429-433 | The target is in range. It is `value + offset` below the maximum, and wraps once past it. |
| ScrollerAxis.Rate | mmstudio/src/org/micromanager/display/internal/ScrollerPanel.java:318 | The rate is `min(30, fps)`. |
| ScrollerAxis.RoundThousandths | mmstudio/src/org/micromanager/display/internal/ScrollerPanel.java:320 | Half-up rounding of `x / 1000`, within half a unit. |
| ScrollerAxis.Step | mmstudio/src/org/micromanager/display/internal/ScrollerPanel.java:318-320 | The step as written is at least 1, and equals `max(1, round(rate * fps / 1000))` while the product fits in an `int`. |
| ScrollerAxis.Period | mmstudio/src/org/micromanager/display/internal/ScrollerPanel.java:338 | A period exists if and only if the rate is non-negative. For a positive rate it is `1000 / rate` rounded down. |
| ScrollerAxis.SlowAnimationStepsByOne | mmstudio/src/org/micromanager/display/internal/ScrollerPanel.java:318-320 | Up to 30 fps the timer ticks `fps` times a second, one image per tick. |
| ScrollerAxis.StepUndershootsAt80 | mmstudio/src/org/micromanager/display/internal/ScrollerPanel.java:318-320 | At 80 fps the step as written shows 60 images a second. |
| ScrollerAxis.IntendedStep | mmstudio/src/org/micromanager/display/internal/ScrollerPanel.java:314-320 | The corrected step is at least 1. |
| ScrollerAxis.IntendedStepMatchesFps | mmstudio/src/org/micromanager/display/internal/ScrollerPanel.java:314-320 | With the corrected step, `rate` ticks a second show `fps` images to within half a tick's worth. |
| ScrollerAxis.IntendedStepAt80 | mmstudio/src/org/micromanager/display/internal/ScrollerPanel.java:314-320 | At 80 fps the corrected step is 3. |
| ScrollerPanel.DrawCoords | mmstudio/src/org/micromanager/display/internal/ScrollerPanel.java:242-251 | The coordinates cover the store's axes and the scrollers. A scroller's axis has its scrollbar value, and every other axis has 0. |
| ScrollerPanel.PostDraw | mmstudio/src/org/micromanager/display/internal/ScrollerPanel.java:237-258 | With posting on, exactly one post of those coordinates is appended. With posting off, nothing changes. |
| ScrollerPanel.OnScrollbarMoved | mmstudio/src/org/micromanager/display/internal/ScrollerPanel.java:219-230 | No-op if and only if the value equals the cached index. Otherwise the cache is updated and one draw is posted. |
| ScrollerPanel.SetValue | mmstudio/src/org/micromanager/display/internal/ScrollerPanel.java:385 | Only that axis moves, with the listener run. One coordinate post is appended exactly when posting is on and the value changed. The panel stays valid and only grows. |
| ScrollerPanel.GrowAxis | mmstudio/src/org/micromanager/display/internal/ScrollerPanel.java:368-372 | The maximum is raised. The listener finds nothing to do, so nothing else changes. |
| ScrollerPanel.Init | mmstudio/src/org/micromanager/display/internal/ScrollerPanel.java:121-132 | There is a scroller exactly for each store axis longer than 1, fresh and at 0. The rate defaults to 10 fps. |
| ScrollerPanel.ResetAnimation | mmstudio/src/org/micromanager/display/internal/ScrollerPanel.java:297-339 | No timer if and only if no axis is animated. A negative rate is refused by the timer. Otherwise it ticks at `min(30, fps)` by the step as written, which is at least 1. |
| ScrollerPanel.ToggleAnimation | mmstudio/src/org/micromanager/display/internal/ScrollerPanel.java:210-213 | Only that axis's animation flag flips, and the timer is reset for the new flags. It stops when no axis is animated, is rejected for a negative rate, and otherwise runs at the capped rate with the step as written. |
| ScrollerPanel.ToggleTwiceRestores | mmstudio/src/org/micromanager/display/internal/ScrollerPanel.java:210-213 | Toggling the same axis twice restores the axes, with the timer reset. |
| ScrollerPanel.OnLockChanged | mmstudio/src/org/micromanager/display/internal/ScrollerPanel.java:263-269 | Only that axis's lock changes. The timer is reset to exactly what a reset of the original panel gives, because the lock plays no part in choosing it. |
| ScrollerPanel.Advance | mmstudio/src/org/micromanager/display/internal/ScrollerPanel.java:429-433 | The axis moves to `(value + offset) mod maximum` and stays valid. |
| ScrollerPanel.Tick | mmstudio/src/org/micromanager/display/internal/ScrollerPanel.java:325-335 | Exactly the animated, unlocked axes advance by the step. Then one draw of the new positions is posted. |
| ScrollerPanel.SnapBack | mmstudio/src/org/micromanager/display/internal/ScrollerPanel.java:407-415 | Every axis with a saved position returns to it and the others stay. Then one draw is posted. |
| ScrollerPanel.SnapBackSettles | mmstudio/src/org/micromanager/display/internal/ScrollerPanel.java:407-415 | A second snap-back leaves the axes where the first put them. |
| ScrollerPanel.ApplyLock | mmstudio/src/org/micromanager/display/internal/ScrollerPanel.java:373-391 | A super-locked axis stays and is drawn at its position. A locked axis saves its position unless one is saved, then moves. An unlocked axis moves. |
| ScrollerPanel.TrackAxis | mmstudio/src/org/micromanager/display/internal/ScrollerPanel.java:366-391 | The maximum grows to `index + 1` if smaller, then the lock rule applies. Other axes are untouched. |
| ScrollerPanel.UpdateAxis | mmstudio/src/org/micromanager/display/internal/ScrollerPanel.java:351-392 | An untracked axis with index 0 is skipped. With a non-zero index it gains a scroller, which throws exactly when the store length is below 1. |
| ScrollerPanel.UpdateAxes | mmstudio/src/org/micromanager/display/internal/ScrollerPanel.java:351-392 | The loop updates every store axis, or stops at a throwing scroller creation. New scrollers only appear for store axes with a non-zero index. |
| ScrollerPanel.OnNewImage | mmstudio/src/org/micromanager/display/internal/ScrollerPanel.java:345-423 | Maxima never shrink and scrollers only appear where the image has a non-zero index. The lock rule holds on every store axis. Afterwards come the layout event (only when scrollers were added) and the draw request, and the snap-back is scheduled exactly when positions are saved. A throw leaves only the coordinate posts made before it. |

## Left out

- File and JSON I/O of the profile (`loadUserMapping`, `writeUserMapping`, `loadFileToString`, `savePropertyMapToFile`, JSON parsing), `appendFile`, the `synchronized` blocks and the singleton. Stored files appear as a map from file name to profile. A file that does not parse as JSON is not modelled.
- `UserProfile.Get`: one function stands for all typed getters and setters. A value of another type is assumed to read as null, since `DefaultPropertyMap` is not part of this model.
- `UserProfile.LoadUser`: `DefaultPropertyMap` is not part of this model, so a stored profile is taken as it is.
- Timers, `Thread.sleep` and wall-clock time. The clock is part of the snapshot trace. Timer scheduling is reduced to the `Animation` state and the `snapBack` flag. The timer tasks are modelled by their bodies (`Tick`, `SnapBack`).
- `Autofocus.RunFocus`: `prepareControllerForAquisition` and `getAutoShutter` (AutofocusUtils.java lines 97 and 115) run before the `try`. An exception from either skips the cleanup. The model gives these calls no fault.
- Hardware and vendor calls without modelled state: camera choice, exposure, piezo and galvo parking, the position updater, and the debug acquisition window. They are steps that may throw.
- IEEE floating point. Sweep positions and scores are `real`.
- ImageJ processor construction beyond the processor kind, size and pixels.
- `PixelDispatch.GetInt`: a text tag holding a number (`"IJType": "1"`) is converted by `JSONObject.getInt` to that number; the model reads only numeric tags, because the JSON library's conversion rules are not part of this model.
- `PixelDispatch.GetString`: a numeric `PixelType` tag is not converted to text; the model reads only text tags, for the same reason.
- `PixelDispatch.WrapPixels`: the casts to `byte[]`, `short[]` and `float[]` throw `ClassCastException` on a pixel array of another element type, which `runFocus` reports as a hardware error; the element type of the pixels is not modelled.
- Swing layout, labels, icons, popup menus and the FPS button. The constructor's write-back of the default rate to the display settings. `onNewDisplaySettings` and `onDisplayDestroyed`.
- `ScrollerPanel.OnNewImage`: a missing axis in the image coordinates is assumed to read as index 0, since `DefaultCoords` is not part of this model. The exceptions from a store or an image other than scroller creation are not modelled.
- The `savedIndex_` field of `AxisState`, which is written once and never read.

## Findings

| source | as written | input that shows it | evidently intended | confidence | as-written member | corrected member |
|---|---|---|---|---|---|---|
| mmstudio/src/org/micromanager/internal/utils/DefaultUserProfile.java:498 | `clearProfileSubset` keeps keys that do not start with the bare class name (and `saveProfileSubsetToFile` selects the ones that do) | clearing class `org.Foo` also removes the keys of `org.FooBar` | remove only the keys `genKey` makes for that class, i.e. those starting with `className + ":"` | high, not executed | UserProfile.ClearOverreaches | UserProfile.ClearClassSubsetExact |
| mmstudio/src/org/micromanager/internal/utils/DefaultUserProfile.java:481 | `fileIndex + 1` in `int` arithmetic | a mapping holding `profile-2147483647.txt`; two further users both get `profile--2147483648.txt` | a file name no user has | medium, not executed | UserProfile.OverflowSharesFile | UserProfile.AddUser |
| mmstudio/src/org/micromanager/display/internal/ScrollerPanel.java:319-320 | step `round(rate * fps / 1000)` | 80 fps: 30 ticks a second of 2 images each show 60 images a second | step `fps / rate` rounded, so that `rate` ticks a second show `fps` images (80 fps: step 3) | medium, not executed | ScrollerAxis.StepUndershootsAt80 | ScrollerAxis.IntendedStepMatchesFps |

The profile's `LoadUser` and the panel's `ResetAnimation` use the allocation and the step as written; `UserProfile.AddUser` and `ScrollerAxis.IntendedStep` state the intended behaviour beside them.

=== FILE: af_pixel.dfy ===
/** Dispatch of a camera frame to an ImageJ processor by its pixel type.

    A frame carries JSON-like metadata tags; the ImageJ type code is taken
    from an `IJType` tag when one is readable as a number, otherwise derived
    from the `PixelType` name. The processor itself is reduced to the type
    tag it was built for, its size and the pixel data it wraps. */
module PixelDispatch {
  import opened Basics

  /** ImageJ's image type codes (`ImagePlus.GRAY8` ... `ImagePlus.COLOR_RGB`). */
  const Gray8: int := 0
  const Gray16: int := 1
  const Gray32: int := 2
  const Color256: int := 3
  const ColorRgb: int := 4

  /** A metadata tag value: a number or a string. */
  datatype Tag = Num(n: int) | Text(s: string)

  type Tags = map<string, Tag>

  /** Raw pixel data; its element type is not modelled. */
  datatype Pixels = Pixels(data: seq<int>)

  datatype Frame = Frame(tags: Tags, pix: Option<Pixels>)

  datatype ProcessorKind = ByteProc | ShortProc | FloatProc | ColorProc

  /** An ImageJ processor, or `null` for a type code nothing handles. */
  datatype Processor =
    | NoProcessor
    | Processor(kind: ProcessorKind, width: int, height: int, pix: Option<Pixels>)

  /** The exceptions the dispatch raises. */
  datatype PixelError =
    | UnknownPixelType   // "Can't figure out IJ type." : PixelType names no known type
    | MissingPixelType   // "Can't figure out IJ type" : neither tag is readable
    | ColorUnsupported   // "Color images are not supported"
    | BadImageTags       // "Error while parsing image tags": Width or Height unreadable

  /** `JSONObject.getInt`: a number tag; a missing or textual tag fails. */
  function GetInt(tags: Tags, key: string): Option<int> {
    if key in tags && tags[key].Num? then Some(tags[key].n) else None
  }

  /** `JSONObject.getString`: a text tag; a missing or numeric tag fails. */
  function GetString(tags: Tags, key: string): Option<string> {
    if key in tags && tags[key].Text? then Some(tags[key].s) else None
  }

  /** The Micro-Manager pixel-type name of an ImageJ type code, if any. */
  function PixelTypeName(ijType: int): Option<string> {
    if ijType == Gray8 then Some("GRAY8")
    else if ijType == Gray16 then Some("GRAY16")
    else if ijType == Gray32 then Some("GRAY32")
    else if ijType == ColorRgb then Some("RGB32")
    else None
  }

  /** The ImageJ type of a frame's metadata (`getIJType`). */
  function IJType(tags: Tags): (r: Result<int, PixelError>)
    ensures GetInt(tags, "IJType").Some? ==> r == Ok(GetInt(tags, "IJType").value)
    ensures GetInt(tags, "IJType").None? && GetString(tags, "PixelType").None? ==> r == Err(MissingPixelType)
    ensures GetInt(tags, "IJType").None? && GetString(tags, "PixelType").Some? ==>
              (r.Err? ==> r.error == UnknownPixelType
                          && forall t :: PixelTypeName(t) != GetString(tags, "PixelType"))
    ensures GetInt(tags, "IJType").None? && r.Ok? ==> PixelTypeName(r.value) == GetString(tags, "PixelType")
  {
    match GetInt(tags, "IJType")
    case Some(t) => Ok(t)
    case None =>
      match GetString(tags, "PixelType")
      case None => Err(MissingPixelType)
      case Some(name) =>
        if name == "GRAY8" then Ok(Gray8)
        else if name == "GRAY16" then Ok(Gray16)
        else if name == "GRAY32" then Ok(Gray32)
        else if name == "RGB32" then Ok(ColorRgb)
        else
          assert forall t :: PixelTypeName(t) != Some(name);
          Err(UnknownPixelType)
  }

  /** The type code each processor kind is built for. */
  function KindCode(k: ProcessorKind): int {
    match k
    case ByteProc => Gray8
    case ShortProc => Gray16
    case FloatProc => Gray32
    case ColorProc => ColorRgb
  }

  /** A blank processor of the given type (`makeProcessor(type, w, h)`). */
  function BlankProcessor(ijType: int, w: int, h: int): (p: Processor)
    ensures p.Processor? <==> ijType in {Gray8, Gray16, Gray32, ColorRgb}
    ensures p.Processor? ==> KindCode(p.kind) == ijType && p.width == w && p.height == h && p.pix.None?
  {
    if ijType == Gray8 then Processor(ByteProc, w, h, None)
    else if ijType == Gray16 then Processor(ShortProc, w, h, None)
    else if ijType == Gray32 then Processor(FloatProc, w, h, None)
    else if ijType == ColorRgb then Processor(ColorProc, w, h, None)
    else NoProcessor
  }

  /** A processor wrapping existing pixels (`makeProcessor(type, w, h, imgArray)`):
      without pixels it is a blank processor; with pixels the three grey
      types are wrapped, RGB is refused and any other type gives `null`. */
  function WrapPixels(ijType: int, w: int, h: int, pix: Option<Pixels>): (r: Result<Processor, PixelError>)
    ensures pix.None? ==> r == Ok(BlankProcessor(ijType, w, h))
    ensures pix.Some? ==> (r.Err? <==> ijType == ColorRgb)
    ensures pix.Some? && r.Err? ==> r.error == ColorUnsupported
    ensures pix.Some? && r.Ok? ==>
              (r.value.Processor? <==> ijType in {Gray8, Gray16, Gray32})
    ensures r.Ok? && r.value.Processor? ==>
              KindCode(r.value.kind) == ijType && r.value.width == w && r.value.height == h
              && r.value.pix == pix
  {
    if pix.None? then Ok(BlankProcessor(ijType, w, h))
    else if ijType == Gray8 then Ok(Processor(ByteProc, w, h, pix))
    else if ijType == Gray16 then Ok(Processor(ShortProc, w, h, pix))
    else if ijType == Gray32 then Ok(Processor(FloatProc, w, h, pix))
    else if ijType == ColorRgb then Err(ColorUnsupported)
    else Ok(NoProcessor)
  }

  /** The processor for a tagged frame (`makeProcessor(TaggedImage)`): the
      type is resolved first, then the `Width` and `Height` tags are read. */
  function FrameProcessor(f: Frame): (r: Result<Processor, PixelError>)
    ensures IJType(f.tags).Err? ==> r == Err(IJType(f.tags).error)
    ensures IJType(f.tags).Ok? ==>
              (GetInt(f.tags, "Width").None? || GetInt(f.tags, "Height").None? ==> r == Err(BadImageTags))
    ensures IJType(f.tags).Ok? && GetInt(f.tags, "Width").Some? && GetInt(f.tags, "Height").Some? ==>
              r == WrapPixels(IJType(f.tags).value, GetInt(f.tags, "Width").value, GetInt(f.tags, "Height").value, f.pix)
    ensures r.Ok? && r.value.Processor? ==>
              KindCode(r.value.kind) == IJType(f.tags).value
              && r.value.width == GetInt(f.tags, "Width").value
              && r.value.height == GetInt(f.tags, "Height").value
              && r.value.pix == f.pix
  {
    var t :- IJType(f.tags);
    match (GetInt(f.tags, "Width"), GetInt(f.tags, "Height"))
    case (Some(w), Some(h)) => WrapPixels(t, w, h, f.pix)
    case _ => Err(BadImageTags)
  }

  /** The pixel-type names and the four handled type codes correspond one to
      one: naming a code and parsing the name back gives the code again. */
  lemma PixelTypeRoundTrip(ijType: int, other: Tags)
    requires PixelTypeName(ijType).Some?
    requires "IJType" !in other
    ensures IJType(other["PixelType" := Text(PixelTypeName(ijType).value)]) == Ok(ijType)
  {
    var tags := other["PixelType" := Text(PixelTypeName(ijType).value)];
    assert GetInt(tags, "IJType").None?;
  }

  /** An `IJType` tag wins over any `PixelType` tag. */
  lemma IJTypeTagTakesPrecedence(tags: Tags, code: int)
    ensures IJType(tags["IJType" := Num(code)]) == Ok(code)
  {
  }
}

=== FILE: af_poll.dfy ===
/** The two polling loops of an autofocus sweep: waiting for the first frame,
    then popping and scoring frames until the stack is complete.

    Hardware and wall-clock time are replaced by a finite trace of
    snapshots, one per evaluation of a loop condition: the frames that
    reached the camera's circular buffer since the previous check, whether
    the camera's sequence acquisition is still running, and the clock
    reading taken in the loop body that follows. A `DeviceFault` snapshot
    stands for a core call that throws during that iteration. A trace that
    ends while a loop would still poll leaves the sweep `StillPolling`. */
module FramePolling {
  import opened Basics
  import opened PixelDispatch

  /** Milliseconds allowed for the first frame, and for the whole collection. */
  const Timeout: int := 5000

  datatype Snapshot =
    | Observed(arrivals: seq<Frame>, running: bool, clock: int)
    | DeviceFault

  /** The exceptions an autofocus sweep reports. */
  datatype SweepError =
    | NoFirstImage          // "Camera did not send first image within a reasonable time"
    | NoImagesInTime        // "No images arrived in 5 seconds"
    | HardwareFailure       // any other exception inside the sweep
    | PixelFailure(e: PixelError)
    | TriggerFailed         // "Failed to trigger controller"
    | NegativeArraySize     // the score array cannot be allocated

  datatype PollOutcome = Exited | Threw(err: SweepError) | StillPolling

  /** All frames delivered to the buffer during a prefix of the trace, in order. */
  function Arrivals(t: seq<Snapshot>): seq<Frame> {
    if |t| == 0 then []
    else Arrivals(t[..|t| - 1]) + (if t[|t| - 1].Observed? then t[|t| - 1].arrivals else [])
  }

  /** The clock value the loop holds after the bodies of a prefix of the trace. */
  function LastClock(start: int, t: seq<Snapshot>): int {
    if |t| == 0 then start
    else if t[|t| - 1].Observed? then t[|t| - 1].clock
    else LastClock(start, t[..|t| - 1])
  }

  /** The frames of consecutive stretches of the trace join up. */
  lemma {:induction false} ArrivalsSplit(t: seq<Snapshot>, a: nat, b: nat)
    requires a + b <= |t|
    ensures Arrivals(t[..a]) + Arrivals(t[a..][..b]) == Arrivals(t[..a + b])
    decreases b
  {
    if b == 0 {
      assert t[a..][..0] == [];
    } else {
      ArrivalsSplit(t, a, b - 1);
      ArrivalsExtend(t[a..], b - 1);
      ArrivalsExtend(t, a + b - 1);
    }
  }

  /** Check `j` of the first-frame wait found the buffer still empty, with
      the clock read in the previous iteration within the timeout. */
  ghost predicate QuietCheck(start: int, trace: seq<Snapshot>, j: int)
    requires 0 <= j < |trace|
  {
    && trace[j].Observed?
    && Arrivals(trace[..j + 1]) == []
    && LastClock(start, trace[..j]) - start < Timeout
  }

  /** One more snapshot extends the arrivals by its frames. */
  lemma ArrivalsExtend(t: seq<Snapshot>, i: nat)
    requires i < |t|
    ensures Arrivals(t[..i + 1]) == Arrivals(t[..i]) + (if t[i].Observed? then t[i].arrivals else [])
  {
    assert t[..i + 1][..i] == t[..i];
  }

  /** One more snapshot moves the clock to its reading (faults leave it). */
  lemma LastClockExtend(start: int, t: seq<Snapshot>, i: nat)
    requires i < |t|
    ensures LastClock(start, t[..i + 1]) == if t[i].Observed? then t[i].clock else LastClock(start, t[..i])
  {
    assert t[..i + 1][..i] == t[..i];
  }

  /** How a polling loop ended and how many snapshots it consumed. */
  datatype Waited = Waited(outcome: PollOutcome, used: nat)

  /** The first-frame wait from check `i` on, with `now` the clock read in
      the previous iteration. Every earlier check found the buffer empty, so
      only this check's arrivals decide whether the loop goes on. */
  function WaitFrom(start: int, trace: seq<Snapshot>, i: nat, now: int): (r: Waited)
    requires i <= |trace|
    ensures i <= r.used <= |trace|
    ensures r.outcome == StillPolling ==> r.used == |trace|
    ensures r.outcome != StillPolling ==> r.used > i
    ensures r.outcome == Exited ==> trace[r.used - 1].Observed? && |trace[r.used - 1].arrivals| > 0
    decreases |trace| - i
  {
    if i == |trace| then Waited(StillPolling, i)
    else match trace[i]
      case DeviceFault => Waited(Threw(HardwareFailure), i + 1)
      case Observed(arrivals, _, clock) =>
        if |arrivals| == 0 && now - start < Timeout then WaitFrom(start, trace, i + 1, clock)
        else Waited(if now - start >= Timeout then Threw(NoFirstImage) else Exited, i + 1)
  }

  /** The first-frame wait: loop while the buffer is empty and the clock read
      in the previous iteration is still within the timeout; afterwards throw
      if the timeout was reached, even when a frame has just arrived. */
  method WaitForFirstFrame(start: int, trace: seq<Snapshot>)
    returns (outcome: PollOutcome, queue: seq<Frame>, used: nat)
    ensures Waited(outcome, used) == WaitFrom(start, trace, 0, start)
    ensures used <= |trace|
    ensures queue == Arrivals(trace[..used])
    ensures forall j :: 0 <= j < used - 1 ==> QuietCheck(start, trace, j)
    ensures outcome == StillPolling ==> used == |trace| && queue == []
    ensures outcome == StillPolling ==> forall j :: 0 <= j < used ==> QuietCheck(start, trace, j)
    ensures outcome.Threw? ==> outcome.err in {NoFirstImage, HardwareFailure}
    ensures outcome == Threw(HardwareFailure) <==> used >= 1 && trace[used - 1].DeviceFault?
    ensures outcome == Threw(NoFirstImage) ==>
              used >= 1 && LastClock(start, trace[..used - 1]) - start >= Timeout
    ensures outcome == Exited ==>
              used >= 1 && |queue| > 0 && LastClock(start, trace[..used - 1]) - start < Timeout
  {
    queue := [];
    var now := start;
    used := 0;
    while used < |trace|
      invariant used <= |trace|
      invariant queue == Arrivals(trace[..used]) == []
      invariant now == LastClock(start, trace[..used])
      invariant forall j :: 0 <= j < used ==> QuietCheck(start, trace, j)
      invariant WaitFrom(start, trace, 0, start) == WaitFrom(start, trace, used, now)
    {
      var snap := trace[used];
      ArrivalsExtend(trace, used);
      LastClockExtend(start, trace, used);
      used := used + 1;
      if snap.DeviceFault? {
        outcome := Threw(HardwareFailure);
        return;
      }
      queue := queue + snap.arrivals;
      if !(|queue| == 0 && now - start < Timeout) {
        outcome := if now - start >= Timeout then Threw(NoFirstImage) else Exited;
        return;
      }
      now := snap.clock;
    }
    if used > 0 {
      assert QuietCheck(start, trace, used - 1);
    }
    outcome := StillPolling;
  }

  /** The first `counter` popped frames were converted and scored into slots
      `0 .. counter-1` in pop order; the remaining slots hold the default. */
  ghost predicate ScoredInOrder(n: int, score: Processor -> real, scores: seq<real>,
                                popped: seq<Frame>, counter: nat)
  {
    && |scores| == n
    && counter <= n
    && counter <= |popped|
    && (forall k :: 0 <= k < counter ==>
          FrameProcessor(popped[k]).Ok? && scores[k] == score(FrameProcessor(popped[k]).value))
    && (forall k :: counter <= k < n ==> scores[k] == 0.0)
  }

  /** The variables of the collection loop between iterations: the frames
      still in the buffer, the score array, the frames popped so far, the
      next free slot and whether the stack is complete. */
  datatype Collection = Collection(queue: seq<Frame>, scores: seq<real>, popped: seq<Frame>,
                                   counter: nat, done: bool)

  /** The variables as the loop is entered: `n` default scores, nothing popped. */
  function StartCollection(n: nat, queue0: seq<Frame>): Collection {
    Collection(queue0, seq(n, _ => 0.0), [], 0, false)
  }

  /** Facts that hold after every iteration of the collection loop: nothing
      is lost or reordered between the buffer and the popped frames. */
  ghost predicate CollectionInvariant(n: int, queue0: seq<Frame>, arrived: seq<Frame>,
                                      score: Processor -> real, c: Collection)
  {
    && ScoredInOrder(n, score, c.scores, c.popped, c.counter)
    && c.counter == |c.popped|
    && c.popped + c.queue == queue0 + arrived
  }

  /** `done` is set exactly when a non-empty stack is complete. */
  predicate DoneMeansComplete(n: int, c: Collection) {
    c.done <==> c.counter > 0 && c.counter >= n
  }

  datatype Popped = Popped(err: Option<SweepError>, c: Collection)

  /** One pop: the oldest queued frame is taken and converted, and its score
      goes into slot `counter`. A conversion error, or a full array (the
      index exception, reported as a hardware error), leaves the scores. */
  function PopAndScore(score: Processor -> real, c: Collection): (r: Popped)
    requires |c.queue| > 0
    ensures r.c.popped == c.popped + [c.queue[0]] && r.c.queue == c.queue[1..] && r.c.done == c.done
    ensures r.err.None? <==> FrameProcessor(c.queue[0]).Ok? && c.counter < |c.scores|
    ensures r.err.None? ==>
              r.c.counter == c.counter + 1
              && r.c.scores == c.scores[c.counter := score(FrameProcessor(c.queue[0]).value)]
    ensures r.err.Some? ==> r.c.counter == c.counter && r.c.scores == c.scores
    ensures r.err.Some? ==>
              r.err.value == if FrameProcessor(c.queue[0]).Err? then PixelFailure(FrameProcessor(c.queue[0]).error)
                             else HardwareFailure
  {
    var frame := c.queue[0];
    var taken := c.(queue := c.queue[1..], popped := c.popped + [frame]);
    match FrameProcessor(frame)
    case Err(e) => Popped(Some(PixelFailure(e)), taken)
    case Ok(proc) =>
      if c.counter >= |c.scores| then Popped(Some(HardwareFailure), taken)
      else Popped(None, taken.(scores := c.scores[c.counter := score(proc)], counter := c.counter + 1))
  }

  /** A pop keeps the frames in arrival order and fills the slots in pop
      order; the array can only be full when the stack has `n` frames. */
  lemma PopKeepsInvariant(n: int, queue0: seq<Frame>, arrived: seq<Frame>, score: Processor -> real, c: Collection)
    requires CollectionInvariant(n, queue0, arrived, score, c) && |c.queue| > 0
    ensures var r := PopAndScore(score, c);
            && r.c.popped + r.c.queue == queue0 + arrived
            && (r.err.None? ==> CollectionInvariant(n, queue0, arrived, score, r.c))
            && (r.err.Some? ==> ScoredInOrder(n, score, r.c.scores, r.c.popped, r.c.counter)
                                && |r.c.popped| == r.c.counter + 1)
            && (r.err == Some(HardwareFailure) ==> c.counter == n)
  {
    assert c.queue == [c.queue[0]] + c.queue[1..];
    assert (c.popped + [c.queue[0]]) + c.queue[1..] == c.popped + c.queue;
  }

  /** The frames a snapshot delivers to the buffer. */
  function Delivered(snap: Snapshot): seq<Frame> {
    if snap.Observed? then snap.arrivals else []
  }

  /** The buffer as an iteration sees it: the frames left over and the
      snapshot's arrivals. */
  function Queued(snap: Snapshot, c: Collection): seq<Frame> {
    c.queue + Delivered(snap)
  }

  /** The collection loop's condition at a snapshot: frames are queued or the
      camera is still running, and the stack is not complete. */
  predicate LoopContinues(snap: Snapshot, c: Collection) {
    snap.Observed? && (|Queued(snap, c)| > 0 || snap.running) && !c.done
  }

  /** The iteration has a frame to pop, and popping it fails. */
  predicate PopFails(snap: Snapshot, c: Collection) {
    |Queued(snap, c)| > 0 && (FrameProcessor(Queued(snap, c)[0]).Err? || c.counter >= |c.scores|)
  }

  datatype Iteration = Iteration(outcome: PollOutcome, c: Collection)

  /** One iteration of the collection loop, from the condition check to the
      timeout check, against one snapshot. */
  function CollectOnce(n: nat, start: int, score: Processor -> real, snap: Snapshot, c: Collection): (r: Iteration)
    // a throwing core call ends the sweep with a hardware error
    ensures snap.DeviceFault? ==> r == Iteration(Threw(HardwareFailure), c)
    // a failing loop condition leaves the loop normally, and only then
    ensures r.outcome == Exited <==> snap.Observed? && !LoopContinues(snap, c)
    ensures r.outcome == StillPolling <==>
              LoopContinues(snap, c) && !PopFails(snap, c) && snap.clock - start <= Timeout
    ensures r.outcome == Threw(NoImagesInTime) <==>
              LoopContinues(snap, c) && !PopFails(snap, c) && snap.clock - start > Timeout
    ensures LoopContinues(snap, c) && PopFails(snap, c) ==>
              r.outcome == Threw(if FrameProcessor(Queued(snap, c)[0]).Err?
                                 then PixelFailure(FrameProcessor(Queued(snap, c)[0]).error)
                                 else HardwareFailure)
    // an iteration that runs pops exactly the oldest frame, if there is one
    ensures r.c.popped == c.popped + (if LoopContinues(snap, c) && |Queued(snap, c)| > 0
                                      then [Queued(snap, c)[0]] else [])
    ensures snap.Observed? ==> r.c.popped + r.c.queue == c.popped + Queued(snap, c)
    ensures r.c.counter == c.counter + (if LoopContinues(snap, c) && |Queued(snap, c)| > 0 && !PopFails(snap, c)
                                        then 1 else 0)
  {
    if snap.DeviceFault? then Iteration(Threw(HardwareFailure), c)
    else
      var entered := c.(queue := Queued(snap, c));
      if !((|entered.queue| > 0 || snap.running) && !entered.done) then Iteration(Exited, entered)
      else if |entered.queue| == 0 then
        Iteration(if snap.clock - start > Timeout then Threw(NoImagesInTime) else StillPolling, entered)
      else
        var p := PopAndScore(score, entered);
        assert entered.queue == [entered.queue[0]] + entered.queue[1..];
        if p.err.Some? then Iteration(Threw(p.err.value), p.c)
        else
          var next := p.c.(done := p.c.done || p.c.counter >= n);
          Iteration(if snap.clock - start > Timeout then Threw(NoImagesInTime) else StillPolling, next)
  }

  /** What an outcome other than `StillPolling` tells about the last snapshot
      `snap` and the frames popped so far. */
  ghost predicate ExitReason(n: int, start: int, snap: Snapshot, delivered: seq<Frame>,
                             outcome: PollOutcome, popped: seq<Frame>, counter: nat)
  {
    && (outcome == Exited ==>
          && snap.Observed? && |popped| == counter
          && ((n >= 1 && counter == n) || (popped == delivered && !snap.running)))
    && (outcome == Threw(HardwareFailure) ==>
          snap.DeviceFault? || (n == 0 && |popped| == 1))
    && (outcome == Threw(NoImagesInTime) ==>
          snap.Observed? && snap.clock - start > Timeout)
    && (outcome.Threw? && outcome.err.PixelFailure? ==>
          |popped| == counter + 1 && FrameProcessor(popped[counter]) == Err(outcome.err.e))
    && (outcome.Threw? ==> !outcome.err.NoFirstImage?)
  }

  /** An iteration keeps the collection invariant while the loop goes on;
      when it ends the loop, the frames popped are a prefix of those
      delivered and the outcome has its reason. */
  lemma CollectOnceKeepsInvariant(n: nat, queue0: seq<Frame>, arrived: seq<Frame>, start: int,
                                  score: Processor -> real, snap: Snapshot, c: Collection)
    requires CollectionInvariant(n, queue0, arrived, score, c) && DoneMeansComplete(n, c)
    ensures var r := CollectOnce(n, start, score, snap, c);
            r.outcome == StillPolling ==>
              CollectionInvariant(n, queue0, arrived + Delivered(snap), score, r.c) && DoneMeansComplete(n, r.c)
    ensures var r := CollectOnce(n, start, score, snap, c);
            r.outcome != StillPolling ==>
              && ScoredInOrder(n, score, r.c.scores, r.c.popped, r.c.counter)
              && r.c.popped <= queue0 + arrived + Delivered(snap)
              && |r.c.popped| <= r.c.counter + 1
              && ExitReason(n, start, snap, queue0 + arrived + Delivered(snap), r.outcome, r.c.popped, r.c.counter)
  {
    var r := CollectOnce(n, start, score, snap, c);
    if snap.DeviceFault? {
      assert c.popped <= c.popped + c.queue;
      return;
    }
    var entered := c.(queue := Queued(snap, c));
    assert c.popped + (c.queue + Delivered(snap)) == (c.popped + c.queue) + Delivered(snap);
    assert c.popped + entered.queue == queue0 + (arrived + Delivered(snap));
    assert CollectionInvariant(n, queue0, arrived + Delivered(snap), score, entered);
    if LoopContinues(snap, c) && |entered.queue| > 0 {
      PopKeepsInvariant(n, queue0, arrived + Delivered(snap), score, entered);
    }
    assert r.c.popped + r.c.queue == queue0 + arrived + Delivered(snap);
    assert r.c.popped <= r.c.popped + r.c.queue;
  }

  /** How the collection loop ended, the variables it left and how many
      snapshots it consumed. */
  datatype Polled = Polled(outcome: PollOutcome, c: Collection, used: nat)

  /** The collection loop over the trace `t` from the variables `c0`: the
      iterations run in trace order until one ends the loop, and a trace
      that runs out first leaves the loop still polling. */
  function CollectRun(n: nat, start: int, score: Processor -> real, t: seq<Snapshot>, c0: Collection): (r: Polled)
    ensures r.used <= |t|
    ensures r.outcome == StillPolling ==> r.used == |t|
    ensures r.outcome != StillPolling ==> r.used >= 1
    decreases |t|
  {
    if |t| == 0 then Polled(StillPolling, c0, 0)
    else
      var before := CollectRun(n, start, score, t[..|t| - 1], c0);
      if before.outcome != StillPolling then before
      else
        var it := CollectOnce(n, start, score, t[|t| - 1], before.c);
        Polled(it.outcome, it.c, |t|)
  }

  /** One more snapshot after a still polling prefix runs one iteration. */
  lemma CollectRunExtend(n: nat, start: int, score: Processor -> real, t: seq<Snapshot>, c0: Collection,
                         k: nat, c: Collection)
    requires k < |t| && CollectRun(n, start, score, t[..k], c0) == Polled(StillPolling, c, k)
    ensures var it := CollectOnce(n, start, score, t[k], c);
            CollectRun(n, start, score, t[..k + 1], c0) == Polled(it.outcome, it.c, k + 1)
  {
    assert t[..k + 1][..k] == t[..k];
    assert t[..k + 1][k] == t[k];
  }

  /** Once the loop has ended, later snapshots change nothing. */
  lemma {:induction false} StoppedRunStays(n: nat, start: int, score: Processor -> real, t: seq<Snapshot>,
                                           c0: Collection, k: nat)
    requires k <= |t| && CollectRun(n, start, score, t[..k], c0).outcome != StillPolling
    ensures CollectRun(n, start, score, t, c0) == CollectRun(n, start, score, t[..k], c0)
    decreases |t| - k
  {
    if k == |t| {
      assert t[..k] == t;
    } else {
      assert t[..|t| - 1][..k] == t[..k];
      StoppedRunStays(n, start, score, t[..|t| - 1], c0, k);
    }
  }

  /** A loop still polling at the end of the trace consumed every snapshot
      in a running iteration: the condition held, the pop (if any)
      succeeded, and the clock was within the timeout. */
  lemma {:induction false} StillPollingRanInTime(n: nat, start: int, score: Processor -> real,
                                                 t: seq<Snapshot>, c0: Collection, j: nat)
    requires CollectRun(n, start, score, t, c0).outcome == StillPolling && j < |t|
    ensures var before := CollectRun(n, start, score, t[..j], c0);
            && before.outcome == StillPolling
            && LoopContinues(t[j], before.c) && !PopFails(t[j], before.c)
            && t[j].clock - start <= Timeout
    decreases |t|
  {
    var k := |t| - 1;
    if j < k {
      assert t[..k][..j] == t[..j];
      assert t[..k][j] == t[j];
      StillPollingRanInTime(n, start, score, t[..k], c0, j);
    }
  }

  /** A snapshot at which the buffer is empty and the camera has stopped
      ends a still running loop normally, whatever follows it. */
  lemma StoppedCameraExits(n: nat, start: int, score: Processor -> real, t: seq<Snapshot>, c0: Collection, j: nat)
    requires j < |t| && CollectRun(n, start, score, t[..j], c0).outcome == StillPolling
    requires t[j].Observed? && !t[j].running && |Queued(t[j], CollectRun(n, start, score, t[..j], c0).c)| == 0
    ensures CollectRun(n, start, score, t, c0).outcome == Exited
    ensures CollectRun(n, start, score, t, c0).used == j + 1
  {
    assert t[..j + 1][..j] == t[..j];
    assert t[..j + 1][j] == t[j];
    StoppedRunStays(n, start, score, t, c0, j + 1);
  }

  /** What a run that ended after consuming the snapshots `consumed` shows:
      it popped a prefix of the frames delivered, scored them in order, and
      ended for a reason the last snapshot shows. */
  ghost predicate EndedFor(n: nat, queue0: seq<Frame>, start: int, score: Processor -> real,
                           consumed: seq<Snapshot>, r: Polled)
    requires |consumed| >= 1
  {
    && ScoredInOrder(n, score, r.c.scores, r.c.popped, r.c.counter)
    && r.c.popped <= queue0 + Arrivals(consumed)
    && |r.c.popped| <= r.c.counter + 1
    && ExitReason(n, start, consumed[|consumed| - 1], queue0 + Arrivals(consumed), r.outcome, r.c.popped, r.c.counter)
  }

  /** An iteration on the last snapshot of `t`, after the snapshots before
      it kept the collection invariant, keeps it over all of `t` when the
      loop goes on. */
  lemma IterationContinues(n: nat, queue0: seq<Frame>, start: int, score: Processor -> real,
                           t: seq<Snapshot>, c: Collection)
    requires |t| >= 1
    requires CollectionInvariant(n, queue0, Arrivals(t[..|t| - 1]), score, c) && DoneMeansComplete(n, c)
    ensures var it := CollectOnce(n, start, score, t[|t| - 1], c);
            it.outcome == StillPolling ==>
              CollectionInvariant(n, queue0, Arrivals(t), score, it.c) && DoneMeansComplete(n, it.c)
  {
    var k := |t| - 1;
    CollectOnceKeepsInvariant(n, queue0, Arrivals(t[..k]), start, score, t[k], c);
    ArrivalsExtend(t, k);
    assert t[..k + 1] == t;
  }

  /** An iteration on the last snapshot of `t` that ends the loop ends it
      for a reason `t` shows. */
  lemma IterationEnds(n: nat, queue0: seq<Frame>, start: int, score: Processor -> real,
                      t: seq<Snapshot>, c: Collection)
    requires |t| >= 1
    requires CollectionInvariant(n, queue0, Arrivals(t[..|t| - 1]), score, c) && DoneMeansComplete(n, c)
    ensures var it := CollectOnce(n, start, score, t[|t| - 1], c);
            it.outcome != StillPolling ==> EndedFor(n, queue0, start, score, t, Polled(it.outcome, it.c, |t|))
  {
    var k := |t| - 1;
    var arrived := Arrivals(t[..k]);
    var it := CollectOnce(n, start, score, t[k], c);
    CollectOnceKeepsInvariant(n, queue0, arrived, start, score, t[k], c);
    ArrivalsExtend(t, k);
    assert t[..k + 1] == t;
    var delivered := queue0 + Arrivals(t);
    assert delivered == queue0 + arrived + Delivered(t[k]);
  }

  /** A run still polling at the end of its trace keeps the collection
      invariant over all the frames the trace delivered. */
  lemma {:induction false} StillPollingKeepsInvariant(n: nat, queue0: seq<Frame>, start: int,
                                                      score: Processor -> real, t: seq<Snapshot>)
    requires CollectRun(n, start, score, t, StartCollection(n, queue0)).outcome == StillPolling
    ensures var r := CollectRun(n, start, score, t, StartCollection(n, queue0));
            CollectionInvariant(n, queue0, Arrivals(t), score, r.c) && DoneMeansComplete(n, r.c)
    decreases |t|
  {
    if |t| > 0 {
      var k := |t| - 1;
      var before := CollectRun(n, start, score, t[..k], StartCollection(n, queue0));
      assert before.outcome == StillPolling;
      StillPollingKeepsInvariant(n, queue0, start, score, t[..k]);
      var it := CollectOnce(n, start, score, t[k], before.c);
      CollectRunExtend(n, start, score, t, StartCollection(n, queue0), k, before.c);
      assert t[..k + 1] == t;
      assert CollectRun(n, start, score, t, StartCollection(n, queue0)).c == it.c;
      IterationContinues(n, queue0, start, score, t, before.c);
    }
  }

  /** A run that ends in the iteration of its last snapshot ends for a reason. */
  lemma EndsAtLast(n: nat, queue0: seq<Frame>, start: int, score: Processor -> real, t: seq<Snapshot>)
    requires |t| >= 1
    requires CollectRun(n, start, score, t[..|t| - 1], StartCollection(n, queue0)).outcome == StillPolling
    requires CollectRun(n, start, score, t, StartCollection(n, queue0)).outcome != StillPolling
    ensures EndedFor(n, queue0, start, score, t, CollectRun(n, start, score, t, StartCollection(n, queue0)))
  {
    var k := |t| - 1;
    var before := CollectRun(n, start, score, t[..k], StartCollection(n, queue0));
    CollectRunExtend(n, start, score, t, StartCollection(n, queue0), k, before.c);
    assert t[..k + 1] == t;
    StillPollingKeepsInvariant(n, queue0, start, score, t[..k]);
    IterationEnds(n, queue0, start, score, t, before.c);
  }

  /** A run that ended did so for a reason the snapshots it consumed show. */
  lemma {:induction false} StoppedRunFacts(n: nat, queue0: seq<Frame>, start: int, score: Processor -> real,
                                           t: seq<Snapshot>)
    requires CollectRun(n, start, score, t, StartCollection(n, queue0)).outcome != StillPolling
    ensures var r := CollectRun(n, start, score, t, StartCollection(n, queue0));
            r.used >= 1 && EndedFor(n, queue0, start, score, t[..r.used], r)
    decreases |t|
  {
    var k := |t| - 1;
    var before := CollectRun(n, start, score, t[..k], StartCollection(n, queue0));
    if before.outcome != StillPolling {
      StoppedRunFacts(n, queue0, start, score, t[..k]);
      assert t[..k][..before.used] == t[..before.used];
    } else {
      EndsAtLast(n, queue0, start, score, t);
      assert t[..|t|] == t;
    }
  }

  /** The collection loop: while frames are queued or the camera is still
      running, and the stack is not complete, pop the oldest frame, score
      it into the next slot, and check the overall timeout. */
  method CollectScores(n: nat, queue0: seq<Frame>, start: int, trace: seq<Snapshot>,
                       score: Processor -> real)
    returns (outcome: PollOutcome, c: Collection, used: nat)
    ensures Polled(outcome, c, used) == CollectRun(n, start, score, trace, StartCollection(n, queue0))
    ensures used <= |trace|
    // frames are popped in arrival order; the k-th is scored into slot k and
    // slots never reached keep the array default
    ensures outcome == StillPolling ==>
              used == |trace| && CollectionInvariant(n, queue0, Arrivals(trace), score, c)
    ensures outcome != StillPolling ==> used >= 1 && EndedFor(n, queue0, start, score, trace[..used], Polled(outcome, c, used))
  {
    c := StartCollection(n, queue0);
    used := 0;
    outcome := StillPolling;
    while used < |trace|
      invariant used <= |trace|
      invariant CollectRun(n, start, score, trace[..used], StartCollection(n, queue0)) == Polled(StillPolling, c, used)
      invariant outcome == StillPolling
    {
      CollectRunExtend(n, start, score, trace, StartCollection(n, queue0), used, c);
      var it := CollectOnce(n, start, score, trace[used], c);
      outcome, c := it.outcome, it.c;
      used := used + 1;
      if outcome != StillPolling {
        StoppedRunStays(n, start, score, trace, StartCollection(n, queue0), used);
        StoppedRunFacts(n, queue0, start, score, trace);
        return;
      }
    }
    assert trace[..used] == trace;
    StillPollingKeepsInvariant(n, queue0, start, score, trace);
  }

  /** Both loops of a sweep against one trace: the first-frame wait, then,
      if it found a frame, the collection from the frames it found. */
  function PollRun(n: nat, waitStart: int, collectStart: int, trace: seq<Snapshot>,
                   score: Processor -> real): (r: Polled)
    ensures r.used <= |trace|
    ensures r.outcome == StillPolling ==> r.used == |trace|
  {
    var w := WaitFrom(waitStart, trace, 0, waitStart);
    var c0 := StartCollection(n, Arrivals(trace[..w.used]));
    if w.outcome != Exited then Polled(w.outcome, c0, w.used)
    else
      var r := CollectRun(n, collectStart, score, trace[w.used..], c0);
      Polled(r.outcome, r.c, w.used + r.used)
  }

  /** When the first frame arrived in time, the frames it found are the
      first frames of the collection, and the collection consumes the rest
      of the trace. */
  lemma WaitThenCollect(n: nat, waitStart: int, collectStart: int, trace: seq<Snapshot>, score: Processor -> real)
    requires WaitFrom(waitStart, trace, 0, waitStart).outcome == Exited
    ensures var w := WaitFrom(waitStart, trace, 0, waitStart).used;
            var r := CollectRun(n, collectStart, score, trace[w..], StartCollection(n, Arrivals(trace[..w])));
            && PollRun(n, waitStart, collectStart, trace, score) == Polled(r.outcome, r.c, w + r.used)
            && |Arrivals(trace[..w])| > 0
            && Arrivals(trace[..w]) + Arrivals(trace[w..][..r.used]) == Arrivals(trace[..w + r.used])
  {
    var w := WaitFrom(waitStart, trace, 0, waitStart).used;
    var r := CollectRun(n, collectStart, score, trace[w..], StartCollection(n, Arrivals(trace[..w])));
    ArrivalsExtend(trace, w - 1);
    assert trace[..w][..w - 1] == trace[..w - 1];
    ArrivalsSplit(trace, w, r.used);
  }

  /** A collection still polling at the end of the trace keeps the score
      array and pops a prefix of the frames delivered. */
  lemma CollectedStillPolling(n: nat, queue0: seq<Frame>, collectStart: int, rest: seq<Snapshot>,
                              score: Processor -> real)
    requires CollectRun(n, collectStart, score, rest, StartCollection(n, queue0)).outcome == StillPolling
    ensures var r := CollectRun(n, collectStart, score, rest, StartCollection(n, queue0));
            |r.c.scores| == n && r.c.popped <= queue0 + Arrivals(rest[..r.used])
  {
    var r := CollectRun(n, collectStart, score, rest, StartCollection(n, queue0));
    StillPollingKeepsInvariant(n, queue0, collectStart, score, rest);
    assert rest[..r.used] == rest;
    assert r.c.popped <= r.c.popped + r.c.queue;
  }

  /** A collection that ended keeps the score array and pops a prefix of
      the frames delivered. A normal exit after a non-empty queue needs a
      non-empty stack, and a short stack means the camera stopped after
      every delivered frame had been scored. */
  lemma CollectedAndEnded(n: nat, queue0: seq<Frame>, collectStart: int, rest: seq<Snapshot>,
                          score: Processor -> real)
    requires |queue0| > 0
    requires CollectRun(n, collectStart, score, rest, StartCollection(n, queue0)).outcome != StillPolling
    ensures var r := CollectRun(n, collectStart, score, rest, StartCollection(n, queue0));
            && r.used >= 1
            && |r.c.scores| == n
            && r.c.popped <= queue0 + Arrivals(rest[..r.used])
            && (r.outcome == Exited ==> n >= 1 && ScoredInOrder(n, score, r.c.scores, r.c.popped, |r.c.popped|))
            && (r.outcome == Exited && |r.c.popped| < n ==>
                  && rest[r.used - 1].Observed? && !rest[r.used - 1].running
                  && r.c.popped == queue0 + Arrivals(rest[..r.used]))
  {
    var r := CollectRun(n, collectStart, score, rest, StartCollection(n, queue0));
    StoppedRunFacts(n, queue0, collectStart, score, rest);
    assert rest[..r.used][r.used - 1] == rest[r.used - 1];
  }

  /** Facts about both loops when the first frame arrived in time: the
      score array keeps its `n` slots and the frames popped are a prefix of
      the frames delivered; a normal exit needs a non-empty stack, and a
      short stack means the camera stopped after every delivered frame had
      been scored. */
  lemma CollectedFacts(n: nat, waitStart: int, collectStart: int, trace: seq<Snapshot>, score: Processor -> real)
    requires WaitFrom(waitStart, trace, 0, waitStart).outcome == Exited
    ensures var P := PollRun(n, waitStart, collectStart, trace, score);
            && |P.c.scores| == n
            && P.c.popped <= Arrivals(trace[..P.used])
            && (P.outcome == Exited ==> n >= 1 && ScoredInOrder(n, score, P.c.scores, P.c.popped, |P.c.popped|))
            && (P.outcome == Exited && |P.c.popped| < n ==>
                  && P.used >= 1 && trace[P.used - 1].Observed? && !trace[P.used - 1].running
                  && P.c.popped == Arrivals(trace[..P.used]))
  {
    var w := WaitFrom(waitStart, trace, 0, waitStart).used;
    var queue0 := Arrivals(trace[..w]);
    var rest := trace[w..];
    WaitThenCollect(n, waitStart, collectStart, trace, score);
    if CollectRun(n, collectStart, score, rest, StartCollection(n, queue0)).outcome == StillPolling {
      CollectedStillPolling(n, queue0, collectStart, rest, score);
    } else {
      CollectedAndEnded(n, queue0, collectStart, rest, score);
      var u := CollectRun(n, collectStart, score, rest, StartCollection(n, queue0)).used;
      assert rest[u - 1] == trace[w + u - 1];
    }
  }

  /** The two loops of a sweep: wait for the first frame, then collect and
      score the stack, all against one trace. */
  method PollFrames(n: nat, waitStart: int, collectStart: int, trace: seq<Snapshot>, score: Processor -> real)
    returns (outcome: PollOutcome, scores: seq<real>, popped: seq<Frame>, used: nat)
    ensures var P := PollRun(n, waitStart, collectStart, trace, score);
            outcome == P.outcome && scores == P.c.scores && popped == P.c.popped && used == P.used
    ensures used <= |trace|
    ensures outcome == StillPolling ==> used == |trace|
    ensures |scores| == n
    ensures popped <= Arrivals(trace[..used])
    ensures outcome == Exited ==> n >= 1 && ScoredInOrder(n, score, scores, popped, |popped|)
    ensures outcome == Exited && |popped| < n ==>
              && used >= 1 && trace[used - 1].Observed? && !trace[used - 1].running
              && popped == Arrivals(trace[..used])
  {
    var queue, waited;
    outcome, queue, waited := WaitForFirstFrame(waitStart, trace);
    scores := seq(n, _ => 0.0);
    popped := [];
    used := waited;
    if outcome != Exited {
      return;
    }
    CollectedFacts(n, waitStart, collectStart, trace, score);
    var c, collected;
    outcome, c, collected := CollectScores(n, queue, collectStart, trace[waited..], score);
    scores, popped := c.scores, c.popped;
    used := waited + collected;
  }
}

=== FILE: af_run.dfy ===
/** One autofocus run of a diSPIM side (`AutofocusUtils.runFocus`): prepare
    the camera, live mode and shutter, sweep the stack, score the frames,
    restore the hardware in a `finally`, and report the position of the
    best-scoring frame.

    The hardware is reduced to the settings the run changes or restores.
    Every core call of the setup and of the cleanup can fail; the
    environment names at most one failing call of each. */
module Autofocus {
  import opened Basics
  import opened PixelDispatch
  import opened FramePolling
  import FocusSweep

  datatype Side = SideA | SideB

  /** The part of the microscope state the run changes and restores. The
      camera choice, exposure, piezo and galvo positions and the position
      updater are driven by calls whose effects are not modelled. */
  datatype Devices = Devices(
    autoShutter: bool,
    shutterOpen: bool,
    liveMode: bool,
    spimCameras: bool)           // cameras configured for SPIM acquisition

  /** The run's parameters, as read from the plugin preferences and the
      slice timing. */
  datatype Settings = Settings(
    side: Side,
    nrImages: int,
    center: real,
    stepSize: real)

  /** The calls of the `try` block before polling starts, in program order. */
  datatype SetupCall =
    | ClearBuffer | SelectCamera | EnableSpimCameras | SetExposure
    | ReadLiveMode | DisableLiveMode | ReadShutter | DisableAutoShutter | OpenShutter
    | StartSequence | TriggerController

  /** The calls of the `finally` block, in program order; `ParkScanner`
      stands for the calls that park the piezos at 0, idle both SPIM state
      machines and resume position updates. */
  datatype CleanupCall = RestoreAutoShutter | RestoreShutter | ParkScanner | ReleaseSpimCameras | ResumeLiveMode

  /** Everything outside the model's control: which call (if any) throws,
      whether the controller accepts the trigger, the clock at the start of
      each polling loop, and the snapshot trace the loops observe. */
  datatype Environment = Environment(
    setupFault: Option<SetupCall>,
    triggerAccepted: bool,
    waitStart: int,
    collectStart: int,
    trace: seq<Snapshot>,
    cleanupFault: Option<CleanupCall>)

  /** The values the `finally` block restores, as captured by the setup. */
  datatype Saved = Saved(autoShutter: bool, shutterOpen: bool, liveModeOriginally: bool)

  /** The position of a setup call in the `try` block. */
  function SetupOrder(c: SetupCall): nat {
    match c
    case ClearBuffer => 0
    case SelectCamera => 1
    case EnableSpimCameras => 2
    case SetExposure => 3
    case ReadLiveMode => 4
    case DisableLiveMode => 5
    case ReadShutter => 6
    case DisableAutoShutter => 7
    case OpenShutter => 8
    case StartSequence => 9
    case TriggerController => 10
  }

  /** Whether the setup makes call `c` at all, given the initial state. */
  predicate SetupIssues(d: Devices, c: SetupCall) {
    match c
    case DisableLiveMode => d.liveMode
    case DisableAutoShutter => d.autoShutter
    case OpenShutter => d.autoShutter && !d.shutterOpen
    case _ => true
  }

  /** Some call the setup makes throws. */
  predicate SetupFaults(d: Devices, fault: Option<SetupCall>) {
    fault.Some? && SetupIssues(d, fault.value)
  }

  /** How many calls of the `try` block run before one throws: the position
      of the throwing call, or all eleven. */
  function SetupReach(d: Devices, fault: Option<SetupCall>): nat {
    if SetupFaults(d, fault) then SetupOrder(fault.value) else 11
  }

  /** Call `c` is made and returns normally: no call made up to and
      including it throws. */
  predicate SetupCompletes(d: Devices, fault: Option<SetupCall>, c: SetupCall) {
    SetupIssues(d, c) && SetupOrder(c) < SetupReach(d, fault)
  }

  /** The state of a run after the setup: the hardware, the values captured
      for the `finally` block, and the exception, if one was thrown. */
  datatype Stage = Stage(devices: Devices, saved: Saved, error: Option<SweepError>)

  /** The reference description of the setup: a setting holds the value its
      call writes if that call completed and the initial value otherwise; a
      captured value is the one read if its read completed and `false`
      otherwise; a thrown call is a hardware error, and a refused trigger
      fails the run once everything else has succeeded. */
  function SetupReference(d: Devices, env: Environment): Stage {
    var f := env.setupFault;
    Stage(
      Devices(d.autoShutter && !SetupCompletes(d, f, DisableAutoShutter),
              d.shutterOpen || SetupCompletes(d, f, OpenShutter),
              d.liveMode && !SetupCompletes(d, f, DisableLiveMode),
              d.spimCameras || SetupCompletes(d, f, EnableSpimCameras)),
      Saved(d.autoShutter,
            SetupCompletes(d, f, ReadShutter) && d.shutterOpen,
            SetupCompletes(d, f, ReadLiveMode) && d.liveMode),
      if SetupFaults(d, f) then Some(HardwareFailure)
      else if !env.triggerAccepted then Some(TriggerFailed)
      else None)
  }

  /** The `try` block up to the trigger, statement by statement. The
      auto-shutter flag is captured before the block; live mode and the
      shutter state start as `false` and are captured when read. Any core
      exception becomes a hardware error; a refused trigger throws. */
  method RunSetup(d: Devices, env: Environment) returns (st: Stage)
    ensures st == SetupReference(d, env)
  {
    var f := env.setupFault;
    var thrown := Some(HardwareFailure);
    var autoShutter, shutterOpen, liveMode, spimCameras := d.autoShutter, d.shutterOpen, d.liveMode, d.spimCameras;
    var saved := Saved(d.autoShutter, false, false);
    if f == Some(ClearBuffer) || f == Some(SelectCamera) || f == Some(EnableSpimCameras) {
      return Stage(d, saved, thrown);
    }
    spimCameras := true;
    if f == Some(SetExposure) || f == Some(ReadLiveMode) {
      return Stage(Devices(autoShutter, shutterOpen, liveMode, spimCameras), saved, thrown);
    }
    saved := saved.(liveModeOriginally := liveMode);
    if saved.liveModeOriginally {
      if f == Some(DisableLiveMode) {
        return Stage(Devices(autoShutter, shutterOpen, liveMode, spimCameras), saved, thrown);
      }
      liveMode := false;
    }
    if f == Some(ReadShutter) {
      return Stage(Devices(autoShutter, shutterOpen, liveMode, spimCameras), saved, thrown);
    }
    saved := saved.(shutterOpen := shutterOpen);
    if saved.autoShutter {
      if f == Some(DisableAutoShutter) {
        return Stage(Devices(autoShutter, shutterOpen, liveMode, spimCameras), saved, thrown);
      }
      autoShutter := false;
      if !saved.shutterOpen {
        if f == Some(OpenShutter) {
          return Stage(Devices(autoShutter, shutterOpen, liveMode, spimCameras), saved, thrown);
        }
        shutterOpen := true;
      }
    }
    var dev := Devices(autoShutter, shutterOpen, liveMode, spimCameras);
    if f == Some(StartSequence) || f == Some(TriggerController) {
      return Stage(dev, saved, thrown);
    }
    if !env.triggerAccepted {
      return Stage(dev, saved, Some(TriggerFailed));
    }
    st := Stage(dev, saved, None);
  }

  /** The position of a cleanup call in the `finally` block. */
  function CleanupOrder(c: CleanupCall): nat {
    match c
    case RestoreAutoShutter => 0
    case RestoreShutter => 1
    case ParkScanner => 2
    case ReleaseSpimCameras => 3
    case ResumeLiveMode => 4
  }

  /** Whether the cleanup makes call `c` at all: live mode is resumed only
      if it was on originally. */
  predicate CleanupIssues(saved: Saved, c: CleanupCall) {
    c == ResumeLiveMode ==> saved.liveModeOriginally
  }

  /** How many calls of the `finally` block run before one throws. */
  function CleanupReach(saved: Saved, fault: Option<CleanupCall>): nat {
    if fault.Some? && CleanupIssues(saved, fault.value) then CleanupOrder(fault.value) else 5
  }

  /** Call `c` of the cleanup is made and no call made up to and including
      it throws (the first exception abandons the rest). */
  predicate CleanupCompletes(saved: Saved, fault: Option<CleanupCall>, c: CleanupCall) {
    CleanupIssues(saved, c) && CleanupOrder(c) < CleanupReach(saved, fault)
  }

  /** The reference description of the cleanup: each restoring call takes
      effect exactly when it completes. */
  function CleanupReference(d: Devices, saved: Saved, fault: Option<CleanupCall>): Devices {
    Devices(if CleanupCompletes(saved, fault, RestoreAutoShutter) then saved.autoShutter else d.autoShutter,
            if CleanupCompletes(saved, fault, RestoreShutter) then saved.shutterOpen else d.shutterOpen,
            CleanupCompletes(saved, fault, ResumeLiveMode) || d.liveMode,
            d.spimCameras && !CleanupCompletes(saved, fault, ReleaseSpimCameras))
  }

  /** The `finally` block, statement by statement: restore the auto-shutter
      and the shutter, park the scanner, release the SPIM cameras and resume
      live mode if it was on. The first call that throws ends the cleanup;
      its exception is logged and swallowed. */
  method RunCleanup(d: Devices, saved: Saved, fault: Option<CleanupCall>) returns (r: Devices)
    ensures r == CleanupReference(d, saved, fault)
  {
    var autoShutter, shutterOpen, liveMode, spimCameras := d.autoShutter, d.shutterOpen, d.liveMode, d.spimCameras;
    if fault == Some(RestoreAutoShutter) {
      return d;
    }
    autoShutter := saved.autoShutter;
    if fault == Some(RestoreShutter) {
      return Devices(autoShutter, shutterOpen, liveMode, spimCameras);
    }
    shutterOpen := saved.shutterOpen;
    if fault == Some(ParkScanner) || fault == Some(ReleaseSpimCameras) {
      return Devices(autoShutter, shutterOpen, liveMode, spimCameras);
    }
    spimCameras := false;
    if saved.liveModeOriginally {
      if fault == Some(ResumeLiveMode) {
        return Devices(autoShutter, shutterOpen, liveMode, spimCameras);
      }
      liveMode := true;
    }
    r := Devices(autoShutter, shutterOpen, liveMode, spimCameras);
  }

  /** A cleanup that was cut short and is then run again in full ends in
      the same state as one full cleanup; in particular a full cleanup is
      idempotent. */
  lemma CleanupRetryCompletes(d: Devices, saved: Saved, fault: Option<CleanupCall>)
    ensures CleanupReference(CleanupReference(d, saved, fault), saved, None) == CleanupReference(d, saved, None)
  {
  }

  /** Whatever the setup got through, a complete cleanup puts the
      auto-shutter and live mode back as they were before the run, leaves
      the shutter as it was read, or closed if it was never read, and
      releases the SPIM cameras. */
  lemma SweepRestoresModes(d: Devices, env: Environment)
    ensures var st := SetupReference(d, env);
            var after := CleanupReference(st.devices, st.saved, None);
            && after.autoShutter == d.autoShutter
            && after.liveMode == d.liveMode
            && after.shutterOpen == (SetupCompletes(d, env.setupFault, ReadShutter) && d.shutterOpen)
            && !after.spimCameras
  {
  }

  datatype FocusOutcome =
    | BestPosition(position: real, index: nat)
    | Failed(error: SweepError)
    | Pending             // the trace ended inside a polling loop

  /** The result of a run: its outcome, the hardware afterwards, the score
      array, the frames popped from the buffer, and how many snapshots of
      the trace the polling loops consumed. */
  datatype FocusRun = FocusRun(outcome: FocusOutcome, devices: Devices, scores: seq<real>,
                               popped: seq<Frame>, used: nat)

  /** `runFocus`. A negative frame count fails when the score array is
      allocated, before anything is changed. Otherwise the setup runs, then
      the two polling loops; whatever happens the cleanup then runs (unless
      the trace ends while still polling) and an error is reported, or the
      position of the first best-scoring frame is returned. */
  method RunFocus(s: Settings, d: Devices, env: Environment, score: Processor -> real)
    returns (r: FocusRun)
    ensures s.nrImages < 0 ==> r.outcome == Failed(NegativeArraySize) && r.devices == d && r.used == 0
    ensures s.nrImages >= 0 && !r.outcome.Pending? ==>
              r.devices == CleanupReference(SetupReference(d, env).devices, SetupReference(d, env).saved,
                                            env.cleanupFault)
    ensures s.nrImages >= 0 && r.outcome.Pending? ==> r.devices == SetupReference(d, env).devices
    // on every exit, a cleanup that runs to completion restores the
    // auto-shutter and live mode, and leaves the shutter as read before the
    // sweep, or closed if it was never read
    ensures s.nrImages >= 0 && !r.outcome.Pending? && env.cleanupFault.None? ==>
              && r.devices.autoShutter == d.autoShutter
              && r.devices.liveMode == d.liveMode
              && r.devices.shutterOpen == (SetupCompletes(d, env.setupFault, ReadShutter) && d.shutterOpen)
    ensures s.nrImages >= 0 && SetupReference(d, env).error.Some? ==>
              r.outcome == Failed(SetupReference(d, env).error.value) && r.used == 0 && r.popped == []
    // after a successful setup the outcome is the polling loops' outcome:
    // a trace that ends while polling leaves the run pending, an exception
    // is reported, and a normal exit yields a best position
    ensures s.nrImages >= 0 && SetupReference(d, env).error.None? ==>
              var P := PollRun(s.nrImages, env.waitStart, env.collectStart, env.trace, score);
              r.used == P.used && r.popped == P.c.popped && r.scores == P.c.scores
    ensures s.nrImages >= 0 && SetupReference(d, env).error.None? ==>
              (r.outcome.Pending? <==>
                 PollRun(s.nrImages, env.waitStart, env.collectStart, env.trace, score).outcome == StillPolling)
    ensures s.nrImages >= 0 && SetupReference(d, env).error.None?
            && PollRun(s.nrImages, env.waitStart, env.collectStart, env.trace, score).outcome.Threw? ==>
              r.outcome == Failed(PollRun(s.nrImages, env.waitStart, env.collectStart, env.trace, score).outcome.err)
    ensures s.nrImages >= 0 && SetupReference(d, env).error.None?
            && PollRun(s.nrImages, env.waitStart, env.collectStart, env.trace, score).outcome == Exited ==>
              r.outcome.BestPosition?
    ensures r.outcome.Pending? ==> r.used == |env.trace|
    ensures r.used <= |env.trace|
    ensures r.popped <= Arrivals(env.trace[..r.used])
    ensures r.outcome.BestPosition? ==>
              && s.nrImages >= 1
              && FocusSweep.IsFirstMax(r.scores, r.outcome.index)
              && r.outcome.position == FocusSweep.Position(s.center, s.stepSize, s.nrImages, r.outcome.index)
              && ScoredInOrder(s.nrImages, score, r.scores, r.popped, |r.popped|)
    // a short stack is accepted without error once the camera has stopped
    // and every delivered frame has been scored
    ensures r.outcome.BestPosition? && |r.popped| < s.nrImages ==>
              && r.used >= 1 && env.trace[r.used - 1].Observed? && !env.trace[r.used - 1].running
              && r.popped == Arrivals(env.trace[..r.used])
  {
    if s.nrImages < 0 {
      return FocusRun(Failed(NegativeArraySize), d, [], [], 0);
    }
    var n: nat := s.nrImages;
    var setup := RunSetup(d, env);
    var scores := seq(n, _ => 0.0);
    var popped: seq<Frame> := [];
    var used: nat := 0;
    var err := setup.error;
    if err.None? {
      var polled;
      polled, scores, popped, used := PollFrames(n, env.waitStart, env.collectStart, env.trace, score);
      if polled == PollOutcome.StillPolling {
        return FocusRun(Pending, setup.devices, scores, popped, used);
      }
      if polled.Threw? {
        err := Some(polled.err);
      }
    }
    var after := RunCleanup(setup.devices, setup.saved, env.cleanupFault);
    SweepRestoresModes(d, env);
    if err.Some? {
      return FocusRun(Failed(err.value), after, scores, popped, used);
    }
    var best := FocusSweep.HighestScoreIndex(scores);
    r := FocusRun(BestPosition(FocusSweep.Position(s.center, s.stepSize, n, best), best),
                  after, scores, popped, used);
  }
}

=== FILE: af_sweep.dfy ===
/** Geometry of one autofocus sweep and the choice of the best frame.

    The piezo/mirror is stepped through `n` positions centred on `center`,
    `stepSize` apart; frame `i` of the stack is taken at `Position(..., i)`.
    After the stack is scored, the first index holding the highest score
    wins. Positions are mathematical reals: the single-precision `center`
    and `stepSize` of the original are not modelled bit for bit. */
module FocusSweep {

  /** The first position of the sweep: half the span below the centre. */
  function SweepStart(center: real, stepSize: real, n: int): real {
    center - 0.5 * (n - 1) as real * stepSize
  }

  /** The position at which frame `i` is taken. */
  function Position(center: real, stepSize: real, n: int, i: int): real {
    SweepStart(center, stepSize, n) + stepSize * i as real
  }

  /** Consecutive frames are exactly one step apart. */
  lemma PositionsAreEvenlySpaced(center: real, stepSize: real, n: int, i: int)
    ensures Position(center, stepSize, n, i + 1) - Position(center, stepSize, n, i) == stepSize
  {
  }

  /** Frames `i` and `n-1-i` lie symmetrically about the centre; in
      particular the first and last frames average to `center`. */
  lemma PositionsSymmetric(center: real, stepSize: real, n: int, i: int)
    requires 0 <= i < n
    ensures Position(center, stepSize, n, i) + Position(center, stepSize, n, n - 1 - i) == 2.0 * center
    ensures Position(center, stepSize, n, 0) + Position(center, stepSize, n, n - 1) == 2.0 * center
  {
  }

  /** A one-frame sweep is taken exactly at the centre. */
  lemma SingleFrameAtCenter(center: real, stepSize: real)
    ensures SweepStart(center, stepSize, 1) == center
    ensures Position(center, stepSize, 1, 0) == center
  {
  }

  /** `k` is the first index that attains the maximum of `scores`. */
  ghost predicate IsFirstMax(scores: seq<real>, k: int) {
    && 0 <= k < |scores|
    && (forall j :: 0 <= j < |scores| ==> scores[j] <= scores[k])
    && (forall j :: 0 <= j < k ==> scores[j] < scores[k])
  }

  /** At most one index is the first maximum: the tie-break is determined. */
  lemma FirstMaxUnique(scores: seq<real>, k1: int, k2: int)
    requires IsFirstMax(scores, k1) && IsFirstMax(scores, k2)
    ensures k1 == k2
  {
    var s1, s2 := scores[k1], scores[k2];
    assert k1 < k2 ==> s1 < s2;
    assert k2 < k1 ==> s2 < s1;
  }

  /** The left-to-right scan with a strict `>` that picks the best frame:
      later frames replace the current best only when strictly better. */
  method HighestScoreIndex(scores: seq<real>) returns (best: nat)
    requires |scores| >= 1
    ensures best < |scores|
    ensures forall j :: 0 <= j < |scores| ==> scores[j] <= scores[best]
    ensures forall j :: 0 <= j < best ==> scores[j] < scores[best]
  {
    var highest := scores[0];
    best := 0;
    var i := 1;
    while i < |scores|
      invariant 1 <= i <= |scores|
      invariant best < i
      invariant highest == scores[best]
      invariant forall j :: 0 <= j < i ==> scores[j] <= highest
      invariant forall j :: 0 <= j < best ==> scores[j] < highest
    {
      if scores[i] > highest {
        best := i;
        highest := scores[i];
      }
      i := i + 1;
    }
  }

  /** The worked example of a five-frame sweep: centre 100, step 2. */
  lemma FiveFrameSweep()
    ensures Position(100.0, 2.0, 5, 0) == 96.0
    ensures Position(100.0, 2.0, 5, 1) == 98.0
    ensures Position(100.0, 2.0, 5, 2) == 100.0
    ensures Position(100.0, 2.0, 5, 3) == 102.0
    ensures Position(100.0, 2.0, 5, 4) == 104.0
  {
  }

  /** Tied maxima at indices 1 and 2: the earlier one wins. */
  method TieGoesToEarliest() returns (best: nat)
    ensures best == 1
  {
    best := HighestScoreIndex([0.1, 0.9, 0.9, 0.3]);
    var s := [0.1, 0.9, 0.9, 0.3];
    assert IsFirstMax(s, best);
    assert IsFirstMax(s, 1);
    FirstMaxUnique(s, best, 1);
  }
}

=== FILE: basics.dfy ===
/** Small shared vocabulary: optional values, results, and the few pieces of
    Java semantics (32-bit ints, truncating remainder, startsWith, decimal
    printing) that the modelled code depends on. */
module Basics {

  datatype Option<+T> = None | Some(value: T)

  datatype Result<+T, +E> = Ok(value: T) | Err(error: E) {
    predicate IsFailure() { Err? }
    function PropagateFailure<U>(): Result<U, E>
      requires Err?
    {
      Err(error)
    }
    function Extract(): T
      requires Ok?
    {
      value
    }
  }

  const IntMax: int := 0x7fff_ffff
  const IntMin: int := -0x8000_0000

  /** Two's-complement wrap of an unbounded integer into Java's `int` range. */
  function WrapInt(x: int): (r: int)
    ensures IntMin <= r <= IntMax
    ensures (r - x) % 0x1_0000_0000 == 0
    ensures IntMin <= x <= IntMax ==> r == x
  {
    (x - IntMin) % 0x1_0000_0000 + IntMin
  }

  /** Java's `%` on `int` for a positive divisor: the remainder takes the
      sign of the dividend (Dafny's `%` never returns a negative value). */
  function JavaRem(a: int, b: int): (r: int)
    requires b > 0
    ensures a >= 0 ==> 0 <= r < b && r == a % b
    ensures a < 0 ==> -b < r <= 0
  {
    if a >= 0 then a % b else -((-a) % b)
  }

  /** Java's `String.startsWith`. */
  predicate StartsWith(s: string, prefix: string) {
    |prefix| <= |s| && s[..|prefix|] == prefix
  }

  predicate IsDigit(c: char) { '0' <= c <= '9' }

  predicate AllDigits(s: string) {
    forall i :: 0 <= i < |s| ==> IsDigit(s[i])
  }

  /** The value of a string of ASCII digits, most significant first. */
  function DigitsValue(s: string): (v: nat)
    requires AllDigits(s)
  {
    if |s| == 0 then 0
    else DigitsValue(s[..|s| - 1]) * 10 + (s[|s| - 1] as int - '0' as int)
  }

  /** Shortest decimal spelling of a natural number, as Java prints it. */
  function NatToDecimal(n: nat): (s: string)
    ensures |s| >= 1 && AllDigits(s)
    ensures |s| > 1 ==> s[0] != '0'
    decreases n
  {
    var d := [(('0' as int) + n % 10) as char];
    if n < 10 then d else NatToDecimal(n / 10) + d
  }

  /** `String.valueOf(int)` / string concatenation of an int. */
  function IntToDecimal(x: int): string {
    if x >= 0 then NatToDecimal(x) else "-" + NatToDecimal(-x)
  }

  lemma {:induction false} DecimalRoundTrip(n: nat)
    ensures DigitsValue(NatToDecimal(n)) == n
    decreases n
  {
    var d := [(('0' as int) + n % 10) as char];
    if n >= 10 {
      DecimalRoundTrip(n / 10);
      var s := NatToDecimal(n / 10) + d;
      assert s[..|s| - 1] == NatToDecimal(n / 10);
    }
  }
}

=== FILE: scroller_axis.dfy ===
/** One axis of the image scroller: its scrollbar, lock and animation flag,
    and the integer arithmetic of animation stepping.

    A scrollbar is Swing's `JScrollBar` as the panel builds it: minimum 0,
    extent 1, so its value always lies in `[0, maximum)`. Setting a value
    clamps it into that range; raising the maximum leaves the value alone. */
module ScrollerAxis {
  import opened Basics

  datatype LockState = Unlocked | Locked | SuperLocked

  datatype Scrollbar = Scrollbar(value: int, maximum: int)

  /** The bounded-range invariant of a scrollbar with minimum 0, extent 1. */
  predicate ValidBar(b: Scrollbar) {
    1 <= b.maximum <= IntMax && 0 <= b.value < b.maximum
  }

  /** `new JScrollBar(HORIZONTAL, 0, 1, 0, length)`: the range model
      refuses a maximum below value + extent, i.e. a length below 1. */
  function NewScrollbar(length: int): (r: Option<Scrollbar>)
    requires length <= IntMax
    ensures r.Some? <==> length >= 1
    ensures r.Some? ==> ValidBar(r.value) && r.value.value == 0 && r.value.maximum == length
  {
    if length >= 1 then Some(Scrollbar(0, length)) else None
  }

  /** The value `setValue(n)` settles on: `n` pulled into `[0, maximum)`. */
  function Clamp(n: int, maximum: int): (v: int)
    requires maximum >= 1
    ensures 0 <= v < maximum
    ensures 0 <= n < maximum ==> v == n
    ensures n < 0 ==> v == 0
    ensures n >= maximum ==> v == maximum - 1
  {
    if n < 0 then 0 else if n > maximum - 1 then maximum - 1 else n
  }

  /** `JScrollBar.setValue`: only the value moves. */
  function SetBarValue(b: Scrollbar, n: int): (r: Scrollbar)
    requires ValidBar(b)
    ensures ValidBar(r) && r.maximum == b.maximum
    ensures r.value == Clamp(n, b.maximum)
  {
    b.(value := Clamp(n, b.maximum))
  }

  /** The panel's use of `setMaximum`: the maximum is raised to `n` when it
      is smaller, and never lowered. */
  function GrowBar(b: Scrollbar, n: int): (r: Scrollbar)
    requires ValidBar(b) && n <= IntMax
    ensures ValidBar(r) && r.value == b.value
    ensures r.maximum >= b.maximum && r.maximum >= n
    ensures r.maximum == b.maximum || r.maximum == n
  {
    if b.maximum < n then b.(maximum := n) else b
  }

  /** The state kept per axis (`AxisState`). The cached index is the last
      scrollbar value the panel reacted to. The saved index of the original
      is written once and never read, so it is not kept. */
  datatype AxisState = AxisState(animated: bool, bar: Scrollbar, lock: LockState, cached: int)

  /** Every scrollbar change reaches the panel's listener at once, so the
      cache always agrees with the scrollbar between events. */
  predicate ValidAxis(s: AxisState) {
    ValidBar(s.bar) && s.cached == s.bar.value
  }

  /** A freshly added scroller: not animated, unlocked, at index 0. */
  function NewAxisState(b: Scrollbar): (s: AxisState)
    requires ValidBar(b) && b.value == 0
    ensures ValidAxis(s) && !s.animated && s.lock == Unlocked && s.bar == b
  {
    AxisState(false, b, Unlocked, 0)
  }

  /** The listener's bookkeeping (`onScrollbarMoved`): a value other than
      the cached one is recorded; the same value changes nothing. */
  function Notice(s: AxisState): (r: AxisState)
    ensures r.cached == s.bar.value
    ensures r == s <==> s.cached == s.bar.value
    ensures r.bar == s.bar && r.lock == s.lock && r.animated == s.animated
  {
    if s.bar.value == s.cached then s else s.(cached := s.bar.value)
  }

  /** `setValue(n)` on an axis's scrollbar together with the listener call
      it triggers when the scrollbar actually changes. */
  function MoveAxis(s: AxisState, n: int): (r: AxisState)
    requires ValidBar(s.bar)
    ensures r.bar.value == Clamp(n, s.bar.maximum) && r.bar.maximum == s.bar.maximum
    ensures r.lock == s.lock && r.animated == s.animated
    ensures ValidAxis(s) ==> ValidAxis(r)
    ensures ValidAxis(s) && s.bar.value == Clamp(n, s.bar.maximum) ==> r == s
  {
    var b := SetBarValue(s.bar, n);
    if b == s.bar then s else Notice(s.(bar := b))
  }

  /** The scrollbar length an image at index `n` calls for (`n + 1` in Java
      `int` arithmetic). */
  function AxisLength(n: int): (len: int)
    requires IntMin <= n <= IntMax
    ensures n < IntMax ==> len == n + 1
    ensures n == IntMax ==> len == IntMin
  {
    WrapInt(n + 1)
  }

  /** The index `advancePosition` moves to: `(value + offset) % maximum`
      with Java's `int` addition and truncating remainder. */
  function AdvanceTarget(value: int, offset: int, maximum: int): (t: int)
    requires maximum >= 1
    ensures 0 <= value && 0 <= offset && value + offset <= IntMax ==>
              t == (value + offset) % maximum && 0 <= t < maximum
  {
    JavaRem(WrapInt(value + offset), maximum)
  }

  /** Stepping forward from a valid index wraps around inside the axis. */
  lemma AdvanceWrapsAround(value: int, offset: int, maximum: int)
    requires 0 <= value < maximum <= IntMax && 0 <= offset && value + offset <= IntMax
    ensures 0 <= AdvanceTarget(value, offset, maximum) < maximum
    ensures value + offset < maximum ==> AdvanceTarget(value, offset, maximum) == value + offset
    ensures maximum <= value + offset < 2 * maximum ==>
              AdvanceTarget(value, offset, maximum) == value + offset - maximum
  {
    var v := value + offset;
    assert AdvanceTarget(value, offset, maximum) == v % maximum;
    if v < maximum {
      RemainderBelowDivisor(v, maximum);
    } else if v < 2 * maximum {
      RemainderAfterOneWrap(v, maximum);
    }
  }

  lemma RemainderBelowDivisor(v: int, m: int)
    requires 0 <= v < m
    ensures v % m == v
  {
    assert v == m * 0 + v;
  }

  lemma RemainderAfterOneWrap(v: int, m: int)
    requires 1 <= m <= v < 2 * m
    ensures v % m == v - m
  {
    var d := v - m;
    assert v == m * 1 + d && 0 <= d < m;
  }

  /** Timer ticks per second: at most 30. */
  function Rate(fps: int): (r: int)
    ensures r <= 30 && r <= fps
    ensures r == 30 || r == fps
  {
    if fps < 30 then fps else 30
  }

  /** Java's `Math.round(x / 1000.0)` for an `int` numerator: half-up
      rounding, which integer floor division gives exactly. */
  function RoundThousandths(x: int): (r: int)
    ensures 1000 * r - 500 <= x < 1000 * r + 500
  {
    (x + 500) / 1000
  }

  /** Images advanced per tick, as written: `max(1, round(rate * fps /
      1000.0))` with the product taken in `int` arithmetic. */
  function Step(fps: int): (s: int)
    requires IntMin <= fps <= IntMax
    ensures s >= 1
    ensures 0 <= fps <= 71582788 ==> s == Max1(RoundThousandths(Rate(fps) * fps))
  {
    RateProductFits(fps);
    Max1(RoundThousandths(WrapInt(Rate(fps) * fps)))
  }

  lemma RateProductFits(fps: int)
    ensures 0 <= fps <= 71582788 ==> 0 <= Rate(fps) * fps <= 30 * fps <= IntMax
  {
    if 0 <= fps < 30 {
      assert Rate(fps) * fps <= 30 * fps by {
        MultiplyMonotone(fps, 30, fps);
      }
    }
  }

  lemma MultiplyMonotone(a: int, b: int, c: int)
    requires 0 <= a <= b && 0 <= c
    ensures 0 <= a * c <= b * c
  {
  }

  function Max1(x: int): int {
    if x < 1 then 1 else x
  }

  /** The timer period in milliseconds, `(int) (1000.0 / rate)`; `None`
      for a negative rate, whose period `Timer.schedule` rejects. A zero
      rate divides to infinity, which the cast turns into `Integer.MAX_VALUE`. */
  function Period(rate: int): (r: Option<int>)
    ensures r.Some? <==> rate >= 0
    ensures rate >= 1 ==> r.value * rate <= 1000 < r.value * rate + rate
  {
    if rate < 0 then None
    else if rate == 0 then Some(IntMax)
    else Some(1000 / rate)
  }

  /** Below 30 fps one image per tick, at `fps` ticks per second. */
  lemma SlowAnimationStepsByOne(fps: int)
    requires 0 <= fps <= 30
    ensures Rate(fps) == fps && Step(fps) == 1
  {
    MultiplyMonotone(fps, 30, fps);
    var x := Rate(fps) * fps;
    assert 0 <= x <= 900;
    assert Step(fps) == Max1(RoundThousandths(x));
    assert RoundThousandths(x) <= 1;
  }

  /** The step as written undershoots: at 80 fps the timer ticks 30 times a
      second, two images at a time, showing 60 images a second. */
  lemma StepUndershootsAt80()
    ensures Rate(80) == 30 && Step(80) == 2
    ensures Rate(80) * Step(80) == 60
  {
    assert Rate(80) * 80 == 2400;
  }

  /** The step the comment at the computation asks for: enough images per
      tick that `rate` ticks a second show `fps` images, i.e. `fps / rate`
      rounded half up. */
  function IntendedStep(fps: int): (s: int)
    ensures s >= 1
  {
    var r := Rate(fps);
    if r <= 0 then 1 else Max1((2 * fps + r) / (2 * r))
  }

  /** With the intended step, `rate` ticks a second show `fps` images to
      within half a tick's worth. */
  lemma {:induction false} IntendedStepMatchesFps(fps: int)
    requires fps >= 1
    ensures 2 * (Rate(fps) * IntendedStep(fps) - fps) <= Rate(fps)
    ensures 2 * (fps - Rate(fps) * IntendedStep(fps)) <= Rate(fps)
  {
    var r := Rate(fps);
    var x := 2 * fps + r;
    var q := x / (2 * r);
    DivisionBounds(x, 2 * r);
    var rq := r * q;
    assert (2 * r) * q == 2 * rq;
    assert 2 * rq <= x < 2 * rq + 2 * r;
    assert q >= 1 by {
      if q <= 0 {
        MultiplyNonPositive(r, q);
      }
    }
    assert IntendedStep(fps) == q;
  }

  lemma DivisionBounds(x: int, d: int)
    requires d >= 1
    ensures d * (x / d) <= x < d * (x / d) + d
  {
  }

  lemma MultiplyNonPositive(r: int, q: int)
    requires r >= 1 && q <= 0
    ensures r * q <= 0
  {
  }

  /** At 80 fps the intended step is 3, showing 90 images a second. */
  lemma IntendedStepAt80()
    ensures IntendedStep(80) == 3
  {
  }
}

=== FILE: scroller_panel.dfy ===
/** The scroller panel of an image display: one scroller per axis of the
    datastore that has more than one position, each with a lock and an
    animation toggle.

    Handlers are modelled as pure state transitions of `Panel`; what the
    original posts on the display's event bus is appended to `events`.
    Every scrollbar change calls the panel's listener synchronously, and
    the `shouldPostEvents_` flag is only ever false inside the tick, the
    snap-back and the settings handler, so it appears here as the `post`
    argument of the calls those bodies make rather than as state. */
module ScrollerPanel {
  import opened Basics
  import opened ScrollerAxis

  /** Image coordinates: an index per axis. An axis the coordinates do not
      mention reads as index 0. */
  type Coords = map<string, int>

  function Index(c: Coords, axis: string): int {
    if axis in c then c[axis] else 0
  }

  /** The datastore as the panel sees it: its axes, in the order it lists
      them, and their lengths (an axis with no recorded length reads as 0). */
  datatype Store = Store(axes: seq<string>, lengths: map<string, int>)

  function StoreLength(store: Store, axis: string): int {
    if axis in store.lengths then store.lengths[axis] else 0
  }

  /** Lengths and indices are Java `int`s, and the datastore lists each
      axis once. */
  predicate ValidStore(store: Store) {
    && (forall a :: a in store.lengths ==> IntMin <= store.lengths[a] <= IntMax)
    && (forall i, j :: 0 <= i < j < |store.axes| ==> store.axes[i] != store.axes[j])
  }

  predicate ValidCoords(c: Coords) {
    forall a :: a in c ==> IntMin <= c[a] <= IntMax
  }

  /** What the panel posts: new image coordinates for the display (the
      settings update, `ImageCoordsEvent` and the draw request of
      `postDrawEvent` together), a draw request for a new image, and a
      layout change when scrollers were added. */
  datatype Event = CoordsPosted(coords: Coords) | DrawRequested(coords: Coords) | LayoutChanged

  /** The animation timer: none, ticking `rate` times a second by `step`
      images, or created but refused by `Timer.schedule`. */
  datatype Animation = Stopped | Running(rate: int, step: int) | ScheduleRejected

  datatype Panel = Panel(
    axes: map<string, AxisState>,
    saved: map<string, int>,
    fps: int,
    animation: Animation,
    events: seq<Event>)

  /** Every scroller is a valid axis; snap-back positions belong to
      scrollers and are positions those scrollers can show. */
  ghost predicate Valid(p: Panel) {
    && (forall a :: a in p.axes ==> ValidAxis(p.axes[a]))
    && (forall a :: a in p.saved ==> a in p.axes && 0 <= p.saved[a] < p.axes[a].bar.maximum)
    && IntMin <= p.fps <= IntMax
  }

  // ------------------------------------------------------------- drawing

  /** The coordinates `postDrawEvent` builds: index 0 for every axis of the
      store, overridden by the scrollbar value wherever there is a
      scroller. */
  function DrawCoords(store: Store, axes: map<string, AxisState>): (c: Coords)
    ensures forall a :: a in c <==> a in store.axes || a in axes
    ensures forall a :: a in axes ==> c[a] == axes[a].bar.value
    ensures forall a :: a in c && a !in axes ==> c[a] == 0
  {
    map a | a in (set x | x in store.axes) + axes.Keys :: if a in axes then axes[a].bar.value else 0
  }

  /** `postDrawEvent`, when posting is enabled. */
  function PostDraw(p: Panel, store: Store, post: bool): (q: Panel)
    ensures q.axes == p.axes && q.saved == p.saved && q.fps == p.fps && q.animation == p.animation
    ensures post ==> q.events == p.events + [CoordsPosted(DrawCoords(store, p.axes))]
    ensures !post ==> q == p
  {
    if post then p.(events := p.events + [CoordsPosted(DrawCoords(store, p.axes))]) else p
  }

  /** `onScrollbarMoved`: a scrollbar value equal to the cached index is a
      redundant notification and changes nothing; any other value is
      cached and posted. */
  function OnScrollbarMoved(p: Panel, store: Store, axis: string, post: bool): (q: Panel)
    requires axis in p.axes
    ensures q == p <==> p.axes[axis].bar.value == p.axes[axis].cached
    ensures q != p ==>
              && q.axes == p.axes[axis := p.axes[axis].(cached := p.axes[axis].bar.value)]
              && (post ==> q.events == p.events + [CoordsPosted(DrawCoords(store, q.axes))])
              && (!post ==> q.events == p.events)
    ensures q.saved == p.saved && q.fps == p.fps && q.animation == p.animation
  {
    var s := p.axes[axis];
    if s.bar.value == s.cached then p
    else PostDraw(p.(axes := p.axes[axis := Notice(s)]), store, post)
  }

  /** `scrollbar.setValue(n)` followed by the listener when the scrollbar
      changed. */
  method SetValue(p: Panel, store: Store, axis: string, n: int, post: bool) returns (q: Panel)
    requires axis in p.axes && ValidBar(p.axes[axis].bar)
    ensures q.axes.Keys == p.axes.Keys
    ensures q.axes[axis] == MoveAxis(p.axes[axis], n)
    ensures forall a :: a in p.axes && a != axis ==> q.axes[a] == p.axes[a]
    ensures q.saved == p.saved && q.fps == p.fps && q.animation == p.animation
    ensures p.events <= q.events && |q.events| <= |p.events| + 1
    ensures forall i :: |p.events| <= i < |q.events| ==> q.events[i].CoordsPosted?
    ensures ValidAxis(p.axes[axis]) ==>
              (|q.events| == |p.events| + 1 <==> post && p.axes[axis].bar.value != Clamp(n, p.axes[axis].bar.maximum))
    ensures Valid(p) ==> Valid(q) && Grows(p, q)
  {
    var s := p.axes[axis];
    var b := SetBarValue(s.bar, n);
    if b == s.bar {
      return p;
    }
    q := OnScrollbarMoved(p.(axes := p.axes[axis := s.(bar := b)]), store, axis, post);
  }

  /** `scrollbar.setMaximum(n)` when the maximum is smaller; the listener it
      triggers finds the value unchanged. */
  method GrowAxis(p: Panel, store: Store, axis: string, n: int) returns (q: Panel)
    requires axis in p.axes && ValidAxis(p.axes[axis]) && n <= IntMax
    ensures q == p.(axes := p.axes[axis := p.axes[axis].(bar := GrowBar(p.axes[axis].bar, n))])
    ensures ValidAxis(q.axes[axis])
    ensures Valid(p) ==> Valid(q) && Grows(p, q)
  {
    var s := p.axes[axis];
    var b := GrowBar(s.bar, n);
    if b == s.bar {
      return p;
    }
    q := OnScrollbarMoved(p.(axes := p.axes[axis := s.(bar := b)]), store, axis, true);
  }

  // --------------------------------------------------------- construction

  /** The constructor: a scroller for each store axis longer than 1, and
      10 frames per second when the display settings name no rate. */
  function Init(store: Store, fpsSetting: Option<int>): (p: Panel)
    requires ValidStore(store)
    requires fpsSetting.Some? ==> IntMin <= fpsSetting.value <= IntMax
    ensures Valid(p)
    ensures forall a :: a in p.axes <==> a in store.axes && StoreLength(store, a) > 1
    ensures forall a :: a in p.axes ==>
              p.axes[a] == AxisState(false, Scrollbar(0, StoreLength(store, a)), Unlocked, 0)
    ensures p.fps == if fpsSetting.Some? then fpsSetting.value else 10
    ensures p.saved == map[] && p.animation == Stopped && p.events == []
  {
    var axes := map a | a in store.axes && StoreLength(store, a) > 1 :: NewAxisState(Scrollbar(0, StoreLength(store, a)));
    Panel(axes, map[], if fpsSetting.Some? then fpsSetting.value else 10, Stopped, [])
  }

  // ----------------------------------------------------------- animation

  /** `resetAnimation`: the old timer is cancelled; a new one is started
      only when some axis is animated, advancing by the step as written. */
  function ResetAnimation(p: Panel): (q: Panel)
    requires IntMin <= p.fps <= IntMax
    ensures q == p.(animation := q.animation)
    ensures q.animation == Stopped <==> forall a :: a in p.axes ==> !p.axes[a].animated
    ensures q.animation.Running? ==>
              q.animation.rate == Rate(p.fps) && q.animation.step == Step(p.fps)
              && q.animation.rate <= 30 && q.animation.step >= 1
    ensures q.animation == ScheduleRejected <==> (exists a :: a in p.axes && p.axes[a].animated) && p.fps < 0
  {
    if forall a :: a in p.axes ==> !p.axes[a].animated then p.(animation := Stopped)
    else
      var rate := Rate(p.fps);
      if Period(rate).None? then p.(animation := ScheduleRejected)
      else p.(animation := Running(rate, Step(p.fps)))
  }

  /** `toggleAnimation`: flip the one axis's flag, then reset the timer. */
  function ToggleAnimation(p: Panel, axis: string): (q: Panel)
    requires axis in p.axes && IntMin <= p.fps <= IntMax
    ensures q.axes.Keys == p.axes.Keys
    ensures q.axes[axis].animated == !p.axes[axis].animated
    ensures q.axes[axis] == p.axes[axis].(animated := q.axes[axis].animated)
    ensures forall a :: a in p.axes && a != axis ==> q.axes[a] == p.axes[a]
    ensures q.saved == p.saved && q.fps == p.fps && q.events == p.events
    ensures q.animation == Stopped <==> forall a :: a in q.axes ==> !q.axes[a].animated
    ensures q.animation.Running? ==> q.animation == Running(Rate(p.fps), Step(p.fps))
    ensures q.animation == ScheduleRejected <==> (exists a :: a in q.axes && q.axes[a].animated) && p.fps < 0
    ensures Valid(p) ==> Valid(q)
  {
    var s := p.axes[axis];
    ResetAnimation(p.(axes := p.axes[axis := s.(animated := !s.animated)]))
  }

  /** Toggling the same axis twice restores the axes; the timer is reset
      for the same animated set. */
  lemma ToggleTwiceRestores(p: Panel, axis: string)
    requires axis in p.axes && IntMin <= p.fps <= IntMax
    ensures ToggleAnimation(ToggleAnimation(p, axis), axis) == ResetAnimation(p)
  {
  }

  /** `onLockChanged`: record the axis's new lock, then reset the timer. */
  function OnLockChanged(p: Panel, axis: string, lock: LockState): (q: Panel)
    requires axis in p.axes && IntMin <= p.fps <= IntMax
    ensures q.axes == p.axes[axis := p.axes[axis].(lock := lock)]
    ensures q.saved == p.saved && q.fps == p.fps && q.events == p.events
    ensures q.animation == ResetAnimation(p).animation
    ensures Valid(p) ==> Valid(q)
  {
    var locked := p.(axes := p.axes[axis := p.axes[axis].(lock := lock)]);
    assert locked.axes.Keys == p.axes.Keys;
    assert forall a :: a in locked.axes ==> locked.axes[a].animated == p.axes[a].animated;
    ResetAnimation(locked)
  }

  /** Whether a tick moves this axis. */
  predicate Ticks(s: AxisState) {
    s.animated && s.lock == Unlocked
  }

  /** `advancePosition` for one axis with posting off. */
  function Advance(s: AxisState, offset: int): (r: AxisState)
    requires ValidAxis(s)
    ensures ValidAxis(r) && r.bar.maximum == s.bar.maximum && r.lock == s.lock && r.animated == s.animated
    ensures 0 <= offset && s.bar.value + offset <= IntMax ==>
              r.bar.value == (s.bar.value + offset) % s.bar.maximum
  {
    MoveAxis(s, AdvanceTarget(s.bar.value, offset, s.bar.maximum))
  }

  /** The animation timer's task: every animated, unlocked axis advances by
      the step, wrapping around; then one draw is posted. */
  function Tick(p: Panel, store: Store): (q: Panel)
    requires Valid(p) && p.animation.Running?
    ensures Valid(q)
    ensures q.axes.Keys == p.axes.Keys
    ensures forall a :: a in p.axes && Ticks(p.axes[a]) ==>
              q.axes[a] == Advance(p.axes[a], p.animation.step)
    ensures forall a :: a in p.axes && !Ticks(p.axes[a]) ==> q.axes[a] == p.axes[a]
    ensures q.saved == p.saved && q.fps == p.fps && q.animation == p.animation
    ensures q.events == p.events + [CoordsPosted(DrawCoords(store, q.axes))]
  {
    var step := p.animation.step;
    var axes := map a | a in p.axes :: if Ticks(p.axes[a]) then Advance(p.axes[a], step) else p.axes[a];
    PostDraw(p.(axes := axes), store, true)
  }

  // ----------------------------------------------------------- snap-back

  /** The snap-back timer's task: every axis with a saved position is set
      back to it with posting off; then one draw is posted. */
  function SnapBack(p: Panel, store: Store): (q: Panel)
    requires Valid(p)
    ensures Valid(q)
    ensures q.axes.Keys == p.axes.Keys
    ensures forall a :: a in p.saved ==> q.axes[a].bar.value == p.saved[a] && q.axes[a].lock == p.axes[a].lock
    ensures forall a :: a in p.axes && a !in p.saved ==> q.axes[a] == p.axes[a]
    ensures q.saved == p.saved && q.fps == p.fps && q.animation == p.animation
    ensures q.events == p.events + [CoordsPosted(DrawCoords(store, q.axes))]
  {
    var axes := map a | a in p.axes :: if a in p.saved then MoveAxis(p.axes[a], p.saved[a]) else p.axes[a];
    PostDraw(p.(axes := axes), store, true)
  }

  /** A second snap-back finds every axis where the first left it. */
  lemma SnapBackSettles(p: Panel, store: Store)
    requires Valid(p)
    ensures SnapBack(SnapBack(p, store), store).axes == SnapBack(p, store).axes
  {
  }

  // ----------------------------------------------------------- new images

  /** The state `onNewImage` threads through its loop: the panel, the
      coordinates it will ask to draw, and whether scrollers were added. */
  datatype Pass = Pass(panel: Panel, displayed: Coords, added: bool)

  /** The axis state before the image: the existing scroller, or the one
      `addScroller` creates. */
  function Before(p: Panel, store: Store, a: string): AxisState {
    if a in p.axes then p.axes[a] else AxisState(false, Scrollbar(0, StoreLength(store, a)), Unlocked, 0)
  }

  /** Handling one axis of the image, after its scroller exists: raise the
      maximum if the image lies beyond it, then act on the lock. */
  method TrackAxis(ghost p0: Panel, s: Pass, store: Store, c: Coords, axis: string) returns (r: Pass)
    requires Valid(s.panel) && axis in s.panel.axes && ValidCoords(c)
    requires s.panel.axes[axis] == Before(p0, store, axis) && SavedAgrees(p0, s.panel, axis)
    requires ShownAsImage(s.displayed, c, axis)
    requires axis !in p0.axes ==> Index(c, axis) != 0
    ensures Valid(r.panel) && Grows(s.panel, r.panel)
    ensures r.added == s.added && r.panel.axes.Keys == s.panel.axes.Keys
    ensures forall b :: b != axis ==> SameAt(s, r, b)
    ensures AxisUpdated(p0, r, store, c, axis)
  {
    var n := Index(c, axis);
    var p := GrowAxis(s.panel, store, axis, AxisLength(n));
    var s1 := s.(panel := p);
    assert forall b :: b != axis ==> SameAt(s, s1, b);
    r := ApplyLock(s1, store, axis, n);
    LockGivesUpdate(p0, s1, r, store, c, axis);
    GrowsTransitive(s.panel, p, r.panel);
    SameAtTransitive(s, s1, r, axis);
  }

  /** Growing the scroller to the image's length and then acting on the
      lock is the update `onNewImage` promises for the axis. */
  lemma LockGivesUpdate(p0: Panel, s1: Pass, r: Pass, store: Store, c: Coords, axis: string)
    requires ValidCoords(c) && axis in s1.panel.axes && axis in r.panel.axes
    requires axis !in p0.axes ==> Index(c, axis) != 0
    requires IntMin <= Index(c, axis) <= IntMax && ValidBar(Before(p0, store, axis).bar)
    requires s1.panel.axes[axis] ==
             Before(p0, store, axis).(bar := GrowBar(Before(p0, store, axis).bar, AxisLength(Index(c, axis))))
    requires SavedAgrees(p0, s1.panel, axis) && ShownAsImage(s1.displayed, c, axis)
    requires LockApplied(s1, r, axis, Index(c, axis)) && ValidAxis(r.panel.axes[axis])
    ensures AxisUpdated(p0, r, store, c, axis)
  {
  }

  /** What acting on the lock does to axis `axis`, from pass `s` to `r`. */
  ghost predicate LockApplied(s: Pass, r: Pass, axis: string, n: int)
    requires axis in s.panel.axes && axis in r.panel.axes && ValidBar(s.panel.axes[axis].bar)
  {
    var before, after := s.panel.axes[axis], r.panel.axes[axis];
    && after.bar.maximum == before.bar.maximum && after.lock == before.lock
    && after.animated == before.animated
    && (before.lock == SuperLocked ==>
          after == before && axis in r.displayed && r.displayed[axis] == before.bar.value
          && SavedAgrees(s.panel, r.panel, axis))
    && (before.lock != SuperLocked ==>
          after.bar.value == Clamp(n, before.bar.maximum)
          && (axis in r.displayed <==> axis in s.displayed)
          && (axis in s.displayed ==> r.displayed[axis] == s.displayed[axis]))
    && (before.lock == Locked ==>
          axis in r.panel.saved
          && r.panel.saved[axis] == if axis in s.panel.saved then s.panel.saved[axis] else before.bar.value)
    && (before.lock == Unlocked ==> SavedAgrees(s.panel, r.panel, axis))
  }

  /** The lock-dependent part of handling an axis: a super-locked axis
      stays and is drawn where it is; a locked axis first remembers its
      position unless it already has one; all but super-locked axes move to
      the image's index. */
  method ApplyLock(s: Pass, store: Store, axis: string, n: int) returns (r: Pass)
    requires Valid(s.panel) && axis in s.panel.axes
    ensures Valid(r.panel) && Grows(s.panel, r.panel)
    ensures r.added == s.added && r.panel.axes.Keys == s.panel.axes.Keys
    ensures forall b :: b != axis ==> SameAt(s, r, b)
    ensures axis in r.panel.axes && LockApplied(s, r, axis, n)
  {
    var p := s.panel;
    var st := p.axes[axis];
    if st.lock == SuperLocked {
      r := s.(displayed := s.displayed[axis := st.bar.value]);
    } else if st.lock == Locked && axis !in p.saved {
      var s2 := s.(panel := p.(saved := p.saved[axis := st.bar.value]));
      SaveKeepsValid(p, axis, st.bar.value);
      assert forall b :: b != axis ==> SameAt(s, s2, b);
      r := MoveTo(s2, store, axis, n);
      GrowsTransitive(p, s2.panel, r.panel);
      SameAtTransitive(s, s2, r, axis);
    } else {
      r := MoveTo(s, store, axis, n);
    }
  }

  /** Moving an axis's scrollbar, within a pass of `onNewImage`. */
  method MoveTo(s: Pass, store: Store, axis: string, n: int) returns (r: Pass)
    requires Valid(s.panel) && axis in s.panel.axes
    ensures Valid(r.panel) && Grows(s.panel, r.panel)
    ensures r.added == s.added && r.displayed == s.displayed && r.panel.saved == s.panel.saved
    ensures r.panel.axes.Keys == s.panel.axes.Keys
    ensures forall b :: b != axis ==> SameAt(s, r, b)
    ensures r.panel.axes[axis] == MoveAxis(s.panel.axes[axis], n)
  {
    var q := SetValue(s.panel, store, axis, n, true);
    r := s.(panel := q);
  }

  lemma SameAtTransitive(s1: Pass, s2: Pass, s3: Pass, axis: string)
    requires forall b :: b != axis ==> SameAt(s1, s2, b)
    requires forall b :: b != axis ==> SameAt(s2, s3, b)
    ensures forall b :: b != axis ==> SameAt(s1, s3, b)
  {
    forall b | b != axis
      ensures SameAt(s1, s3, b)
    {
      assert SameAt(s1, s2, b) && SameAt(s2, s3, b);
    }
  }

  /** One pass of the loop in `onNewImage`. `threw` when creating the
      axis's scrollbar throws, which abandons the rest of the handler. */
  method UpdateAxis(ghost p0: Panel, s: Pass, store: Store, c: Coords, axis: string) returns (r: Pass, threw: bool)
    requires Valid(s.panel) && ValidStore(store) && ValidCoords(c)
    requires Untouched(p0, s, c, axis)
    ensures threw <==> axis !in s.panel.axes && Index(c, axis) != 0 && StoreLength(store, axis) < 1
    ensures !threw ==> Valid(r.panel) && Grows(s.panel, r.panel)
    ensures !threw ==> r.panel.axes.Keys <= s.panel.axes.Keys + {axis}
    ensures !threw && axis in r.panel.axes && axis !in s.panel.axes ==> Index(c, axis) != 0
    ensures !threw ==> r.added == (s.added || (axis in r.panel.axes && axis !in s.panel.axes))
    ensures !threw ==> forall b :: b != axis ==> SameAt(s, r, b)
    ensures !threw ==> AxisUpdated(p0, r, store, c, axis)
  {
    var p := s.panel;
    var n := Index(c, axis);
    r, threw := s, false;
    if axis in p.axes {
      r := TrackAxis(p0, s, store, c, axis);
    } else if n != 0 {
      var bar := NewScrollbar(StoreLength(store, axis));
      if bar.None? {
        threw := true;
        return;
      }
      var s1 := Pass(p.(axes := p.axes[axis := NewAxisState(bar.value)]), s.displayed, true);
      assert forall b :: b != axis ==> SameAt(s, s1, b);
      r := TrackAxis(p0, s1, store, c, axis);
      GrowsTransitive(s.panel, s1.panel, r.panel);
      SameAtTransitive(s, s1, r, axis);
    }
  }

  /** The panel only grows: scrollers are never removed and maxima never
      shrink; the timer and rate are untouched; only coordinate posts are
      appended. */
  ghost predicate Grows(p: Panel, q: Panel) {
    && p.axes.Keys <= q.axes.Keys
    && (forall a :: a in p.axes ==> q.axes[a].bar.maximum >= p.axes[a].bar.maximum)
    && q.fps == p.fps && q.animation == p.animation
    && OnlyPosts(p.events, q.events)
  }

  /** `after` extends `before` by coordinate posts only. */
  ghost predicate OnlyPosts(before: seq<Event>, after: seq<Event>) {
    && before <= after
    && (forall i :: |before| <= i < |after| ==> after[i].CoordsPosted?)
  }

  lemma GrowsTransitive(p: Panel, q: Panel, r: Panel)
    requires Grows(p, q) && Grows(q, r)
    ensures Grows(p, r)
  {
    forall i | |p.events| <= i < |r.events|
      ensures r.events[i].CoordsPosted?
    {
      if i < |q.events| {
        assert r.events[i] == q.events[i];
      }
    }
  }

  /** Remembering a position the scroller can show keeps the panel valid. */
  lemma SaveKeepsValid(p: Panel, axis: string, v: int)
    requires Valid(p) && axis in p.axes && 0 <= v < p.axes[axis].bar.maximum
    ensures Valid(p.(saved := p.saved[axis := v])) && Grows(p, p.(saved := p.saved[axis := v]))
  {
  }

  /** Two passes agree on everything about axis `a`. */
  ghost predicate SameAt(s: Pass, r: Pass, a: string) {
    && (a in s.panel.axes <==> a in r.panel.axes)
    && (a in s.panel.axes ==> r.panel.axes[a] == s.panel.axes[a])
    && (a in s.panel.saved <==> a in r.panel.saved)
    && (a in s.panel.saved ==> r.panel.saved[a] == s.panel.saved[a])
    && (a in s.displayed <==> a in r.displayed)
    && (a in s.displayed ==> r.displayed[a] == s.displayed[a])
  }

  /** The draw request shows the image's own index on axis `a`. */
  ghost predicate ShownAsImage(d: Coords, c: Coords, a: string) {
    (a in d <==> a in c) && (a in c ==> d[a] == c[a])
  }

  ghost predicate SavedAgrees(p: Panel, q: Panel, a: string) {
    (a in q.saved <==> a in p.saved) && (a in p.saved ==> q.saved[a] == p.saved[a])
  }

  /** Axis `a` has not been looked at: as before the image. */
  ghost predicate Untouched(p0: Panel, s: Pass, c: Coords, a: string) {
    && (a in p0.axes <==> a in s.panel.axes)
    && (a in p0.axes ==> s.panel.axes[a] == p0.axes[a])
    && SavedAgrees(p0, s.panel, a)
    && ShownAsImage(s.displayed, c, a)
  }

  /** What `onNewImage` promises for one store axis `a`, against the panel
      `p0` before the image:
      - an untracked axis at index 0 stays untracked;
      - otherwise the axis has a scroller whose maximum is raised to the
        image's index + 1 when smaller, and never lowered;
      - a super-locked axis keeps its position and the draw shows that
        position;
      - any other axis moves to the image's index (clamped to the bar) and
        the draw shows the image's index;
      - a locked axis remembers the position it had, unless it already
        remembers one. */
  ghost predicate AxisUpdated(p0: Panel, s: Pass, store: Store, c: Coords, a: string)
    requires ValidCoords(c)
  {
    var n := Index(c, a);
    var r := s.panel;
    if a !in p0.axes && n == 0 then
      a !in r.axes && SavedAgrees(p0, r, a) && ShownAsImage(s.displayed, c, a)
    else
      var b := Before(p0, store, a);
      && a in r.axes
      && ValidAxis(r.axes[a])
      && r.axes[a].lock == b.lock && r.axes[a].animated == b.animated
      && r.axes[a].bar.maximum == (if b.bar.maximum < AxisLength(n) then AxisLength(n) else b.bar.maximum)
      && (b.lock == SuperLocked ==>
            r.axes[a].bar.value == b.bar.value && a in s.displayed && s.displayed[a] == b.bar.value)
      && (b.lock != SuperLocked ==>
            r.axes[a].bar.value == Clamp(n, r.axes[a].bar.maximum) && ShownAsImage(s.displayed, c, a))
      && (b.lock == Locked ==>
            a in r.saved && r.saved[a] == (if a in p0.saved then p0.saved[a] else b.bar.value))
      && (b.lock != Locked ==> SavedAgrees(p0, r, a))
  }

  /** Handling another axis keeps a promise already established, and keeps
      an untouched axis untouched. */
  lemma SameAtKeeps(p0: Panel, s: Pass, r: Pass, store: Store, c: Coords, a: string)
    requires ValidCoords(c) && SameAt(s, r, a)
    ensures AxisUpdated(p0, s, store, c, a) ==> AxisUpdated(p0, r, store, c, a)
    ensures Untouched(p0, s, c, a) ==> Untouched(p0, r, c, a)
  {
  }

  /** The loop invariant of `onNewImage` after the first `i` store axes:
      the panel's shape, and what each axis looks like. */
  ghost predicate Progress(p: Panel, s: Pass, store: Store, c: Coords, i: int)
    requires ValidCoords(c)
  {
    Shaped(p, s, store, c, i) && Framed(p, s, store, c, i)
  }

  /** The panel is valid, has only grown, and gained scrollers only for
      the first `i` store axes, where the image has a nonzero index. */
  ghost predicate Shaped(p: Panel, s: Pass, store: Store, c: Coords, i: int) {
    && 0 <= i <= |store.axes|
    && Valid(s.panel) && Grows(p, s.panel)
    && (forall a :: a in s.panel.axes && a !in p.axes ==> a in store.axes[..i] && Index(c, a) != 0)
    && s.added == (s.panel.axes.Keys != p.axes.Keys)
  }

  /** The first `i` store axes are updated; every other axis is as before. */
  ghost predicate Framed(p: Panel, s: Pass, store: Store, c: Coords, i: int)
    requires ValidCoords(c)
  {
    && 0 <= i <= |store.axes|
    && (forall j :: 0 <= j < i ==> AxisUpdated(p, s, store, c, store.axes[j]))
    && (forall a :: a !in store.axes[..i] ==> Untouched(p, s, c, a))
  }

  /** One more axis handled keeps the loop invariant. */
  lemma ProgressStep(p: Panel, s: Pass, s1: Pass, store: Store, c: Coords, i: int)
    requires ValidStore(store) && ValidCoords(c)
    requires Progress(p, s, store, c, i) && i < |store.axes|
    requires Valid(s1.panel) && Grows(s.panel, s1.panel)
    requires s1.panel.axes.Keys <= s.panel.axes.Keys + {store.axes[i]}
    requires store.axes[i] in s1.panel.axes && store.axes[i] !in s.panel.axes ==> Index(c, store.axes[i]) != 0
    requires s1.added == (s.added || (store.axes[i] in s1.panel.axes && store.axes[i] !in s.panel.axes))
    requires forall b :: b != store.axes[i] ==> SameAt(s, s1, b)
    requires AxisUpdated(p, s1, store, c, store.axes[i])
    ensures Progress(p, s1, store, c, i + 1)
  {
    ShapeStep(p, s, s1, store, c, i);
    FrameStep(p, s, s1, store, c, i);
  }

  lemma ShapeStep(p: Panel, s: Pass, s1: Pass, store: Store, c: Coords, i: int)
    requires Shaped(p, s, store, c, i) && i < |store.axes|
    requires Valid(s1.panel) && Grows(s.panel, s1.panel)
    requires s1.panel.axes.Keys <= s.panel.axes.Keys + {store.axes[i]}
    requires store.axes[i] in s1.panel.axes && store.axes[i] !in s.panel.axes ==> Index(c, store.axes[i]) != 0
    requires s1.added == (s.added || (store.axes[i] in s1.panel.axes && store.axes[i] !in s.panel.axes))
    ensures Shaped(p, s1, store, c, i + 1)
  {
    GrowsTransitive(p, s.panel, s1.panel);
    AddedStep(p.axes.Keys, s.panel.axes.Keys, s1.panel.axes.Keys, store.axes[i]);
    NewAxesStep(p, s, s1, store, c, i);
  }

  lemma FrameStep(p: Panel, s: Pass, s1: Pass, store: Store, c: Coords, i: int)
    requires ValidStore(store) && ValidCoords(c)
    requires Framed(p, s, store, c, i) && i < |store.axes|
    requires forall b :: b != store.axes[i] ==> SameAt(s, s1, b)
    requires AxisUpdated(p, s1, store, c, store.axes[i])
    ensures Framed(p, s1, store, c, i + 1)
  {
    EarlierAxesKept(p, s, s1, store, c, i);
    LaterAxesKept(p, s, s1, store, c, i);
  }

  /** Whether scrollers were added so far, one axis later. */
  lemma AddedStep<K>(k0: set<K>, k: set<K>, k1: set<K>, axis: K)
    requires k0 <= k <= k1 <= k + {axis}
    ensures k1 != k0 <==> k != k0 || (axis in k1 && axis !in k)
  {
    if k != k0 {
      var x :| x in k && x !in k0;
      assert x in k1;
    } else if axis in k1 && axis !in k {
      assert axis !in k0;
    } else {
      assert k1 == k;
    }
  }

  lemma NewAxesStep(p: Panel, s: Pass, s1: Pass, store: Store, c: Coords, i: int)
    requires 0 <= i < |store.axes|
    requires forall a :: a in s.panel.axes && a !in p.axes ==> a in store.axes[..i] && Index(c, a) != 0
    requires s1.panel.axes.Keys <= s.panel.axes.Keys + {store.axes[i]}
    requires store.axes[i] in s1.panel.axes && store.axes[i] !in s.panel.axes ==> Index(c, store.axes[i]) != 0
    ensures forall a :: a in s1.panel.axes && a !in p.axes ==> a in store.axes[..i + 1] && Index(c, a) != 0
  {
    assert store.axes[..i + 1] == store.axes[..i] + [store.axes[i]];
  }

  lemma EarlierAxesKept(p: Panel, s: Pass, s1: Pass, store: Store, c: Coords, i: int)
    requires ValidStore(store) && ValidCoords(c) && 0 <= i < |store.axes|
    requires forall j :: 0 <= j < i ==> AxisUpdated(p, s, store, c, store.axes[j])
    requires forall b :: b != store.axes[i] ==> SameAt(s, s1, b)
    requires AxisUpdated(p, s1, store, c, store.axes[i])
    ensures forall j :: 0 <= j < i + 1 ==> AxisUpdated(p, s1, store, c, store.axes[j])
  {
    forall j | 0 <= j < i
      ensures AxisUpdated(p, s1, store, c, store.axes[j])
    {
      assert store.axes[j] != store.axes[i];
      SameAtKeeps(p, s, s1, store, c, store.axes[j]);
    }
  }

  lemma LaterAxesKept(p: Panel, s: Pass, s1: Pass, store: Store, c: Coords, i: int)
    requires ValidCoords(c) && 0 <= i < |store.axes|
    requires forall a :: a !in store.axes[..i] ==> Untouched(p, s, c, a)
    requires forall b :: b != store.axes[i] ==> SameAt(s, s1, b)
    ensures forall a :: a !in store.axes[..i + 1] ==> Untouched(p, s1, c, a)
  {
    assert store.axes[..i + 1] == store.axes[..i] + [store.axes[i]];
    forall a | a !in store.axes[..i + 1]
      ensures Untouched(p, s1, c, a)
    {
      SameAtKeeps(p, s, s1, store, c, a);
    }
  }

  /** The loop of `onNewImage` over the store's axes. */
  method UpdateAxes(p: Panel, store: Store, c: Coords) returns (s: Pass, threw: bool)
    requires Valid(p) && ValidStore(store) && ValidCoords(c)
    ensures Valid(s.panel) && Grows(p, s.panel)
    ensures forall a :: a in s.panel.axes && a !in p.axes ==> a in store.axes && Index(c, a) != 0
    ensures threw ==>
              exists a :: a in store.axes && a !in s.panel.axes && Index(c, a) != 0 && StoreLength(store, a) < 1
    ensures !threw ==> Progress(p, s, store, c, |store.axes|)
  {
    s := Pass(p, c, false);
    threw := false;
    var i := 0;
    while i < |store.axes|
      invariant Progress(p, s, store, c, i)
    {
      var axis := store.axes[i];
      assert axis !in store.axes[..i];
      var s1, failed := UpdateAxis(p, s, store, c, axis);
      if failed {
        threw := true;
        return;
      }
      ProgressStep(p, s, s1, store, c, i);
      s := s1;
      i := i + 1;
    }
  }

  /** Posting events after the loop changes none of the per-axis facts. */
  lemma PostingKeepsProgress(p: Panel, s: Pass, store: Store, c: Coords, tail: seq<Event>)
    requires ValidStore(store) && ValidCoords(c)
    requires Progress(p, s, store, c, |store.axes|)
    ensures var q := s.panel.(events := s.panel.events + tail);
            && Valid(q) && Grows(p, q.(events := p.events))
            && (forall a :: a in store.axes ==> AxisUpdated(p, Pass(q, s.displayed, false), store, c, a))
            && (forall a :: a !in store.axes ==> Untouched(p, Pass(q, s.displayed, false), c, a))
  {
    var q := s.panel.(events := s.panel.events + tail);
    var t := Pass(q, s.displayed, false);
    assert store.axes[..|store.axes|] == store.axes;
    forall a | a in store.axes
      ensures AxisUpdated(p, t, store, c, a)
    {
      var j :| 0 <= j < |store.axes| && store.axes[j] == a;
      SameAtKeeps(p, s, t, store, c, a);
    }
    forall a | a !in store.axes
      ensures Untouched(p, t, c, a)
    {
      SameAtKeeps(p, s, t, store, c, a);
    }
  }

  /** `onNewImage`. Returns the panel, the coordinates of the draw request
      (`None` when the handler threw and posted none), and whether the
      snap-back timer is scheduled. */
  method OnNewImage(p: Panel, store: Store, c: Coords) returns (q: Panel, shown: Option<Coords>, snapBack: bool)
    requires Valid(p) && ValidStore(store) && ValidCoords(c)
    ensures Valid(q) && Grows(p, q.(events := p.events))
    ensures forall a :: a in q.axes && a !in p.axes ==> a in store.axes && Index(c, a) != 0
    ensures shown.None? ==> OnlyPosts(p.events, q.events)
    ensures shown.None? ==>
              exists a :: a in store.axes && a !in q.axes && Index(c, a) != 0 && StoreLength(store, a) < 1
    ensures shown.Some? ==>
              && (forall a :: a in store.axes ==> AxisUpdated(p, Pass(q, shown.value, false), store, c, a))
              && (forall a :: a !in store.axes ==> Untouched(p, Pass(q, shown.value, false), c, a))
              && var tail := (if q.axes.Keys != p.axes.Keys then [LayoutChanged] else []) + [DrawRequested(shown.value)];
                 |q.events| >= |p.events| + |tail|
                 && OnlyPosts(p.events, q.events[..|q.events| - |tail|])
                 && q.events[|q.events| - |tail|..] == tail
    ensures snapBack <==> shown.Some? && |q.saved| > 0
  {
    var s, threw := UpdateAxes(p, store, c);
    if threw {
      q, shown, snapBack := s.panel, None, false;
      return;
    }
    var tail := (if s.added then [LayoutChanged] else []) + [DrawRequested(s.displayed)];
    q := s.panel.(events := s.panel.events + tail);
    PostingKeepsProgress(p, s, store, c, tail);
    assert q.events[..|q.events| - |tail|] == s.panel.events;
    shown := Some(s.displayed);
    snapBack := |q.saved| > 0;
  }
}

=== FILE: user_profile.dfy ===
/** The in-memory part of the two-tier user profile store.

    Every setting lives under a key made of the owning class's canonical
    name, a colon and the caller's key. A lookup consults the current
    user's property map first, then the global map, then the caller's
    fallback. Setters replace the user map by an updated copy; the global
    map is never written. Users are mapped to profile file names, and a new
    user gets `profile-N.txt` with `N` one more than the largest number in
    use. Files, JSON and locking are not modelled: what a known user's file
    holds is a parameter. */
module UserProfile {
  import opened Basics

  const GlobalUser: string := "Global defaults"
  const DefaultUser: string := "Default user"

  /** The typed values a property map holds (`String`, `Integer`, `Double`,
      `Boolean`, and arrays of each). */
  datatype Value =
    | Text(s: string)
    | TextArray(ss: seq<string>)
    | Int(i: int)
    | IntArray(ns: seq<int>)
    | Real(r: real)
    | RealArray(rs: seq<real>)
    | Bool(b: bool)
    | BoolArray(bs: seq<bool>)

  /** Which typed getter is asking. */
  datatype Kind = TextKind | TextArrayKind | IntKind | IntArrayKind | RealKind | RealArrayKind | BoolKind | BoolArrayKind

  function KindOf(v: Value): Kind {
    match v
    case Text(_) => TextKind
    case TextArray(_) => TextArrayKind
    case Int(_) => IntKind
    case IntArray(_) => IntArrayKind
    case Real(_) => RealKind
    case RealArray(_) => RealArrayKind
    case Bool(_) => BoolKind
    case BoolArray(_) => BoolArrayKind
  }

  type PropertyMap = map<string, Value>

  /** The store: user-to-file mapping, the current user, and the two maps. */
  datatype Profile = Profile(nameToFile: map<string, string>, userName: string, global: PropertyMap, user: PropertyMap)

  // ---------------------------------------------------------------- keys

  /** The namespaced key of `key` for class `cls` (`genKey`). */
  function GenKey(cls: string, key: string): (k: string)
    ensures StartsWith(k, cls)
    ensures |k| == |cls| + 1 + |key|
    ensures k[|cls|] == ':' && k[|cls| + 1..] == key
  {
    cls + ":" + key
  }

  /** Canonical Java class names contain no colon, so the class part of a
      generated key is everything before its first colon: distinct
      (class, key) pairs give distinct keys. */
  lemma GenKeyInjective(c1: string, k1: string, c2: string, k2: string)
    requires ':' !in c1 && ':' !in c2
    requires GenKey(c1, k1) == GenKey(c2, k2)
    ensures c1 == c2 && k1 == k2
  {
    var s := GenKey(c1, k1);
    assert c1 == s[..|c1|] == c2;
  }

  // ------------------------------------------------------ typed get / set

  /** The typed read of one map (`PropertyMap.getString` and its siblings):
      absent, or holding a value of another type, reads as `null`. */
  function Lookup(m: PropertyMap, k: string, kind: Kind): (r: Option<Value>)
    ensures r.Some? <==> k in m && KindOf(m[k]) == kind
    ensures r.Some? ==> r.value == m[k]
  {
    if k in m && KindOf(m[k]) == kind then Some(m[k]) else None
  }

  /** A typed getter (`getString`, `getInt`, ...): the user's value, else
      the global value, else the fallback (which may be `null`). */
  function Get(p: Profile, cls: string, key: string, kind: Kind, fallback: Option<Value>): (r: Option<Value>)
    requires fallback.Some? ==> KindOf(fallback.value) == kind
    ensures r.Some? ==> KindOf(r.value) == kind
    ensures r == Lookup(p.user, GenKey(cls, key), kind) || r == Lookup(p.global, GenKey(cls, key), kind) || r == fallback
    ensures GenKey(cls, key) in p.user && KindOf(p.user[GenKey(cls, key)]) == kind ==> r == Some(p.user[GenKey(cls, key)])
    ensures Lookup(p.user, GenKey(cls, key), kind).None? ==>
              r == (if Lookup(p.global, GenKey(cls, key), kind).Some? then Lookup(p.global, GenKey(cls, key), kind) else fallback)
  {
    var k := GenKey(cls, key);
    var u := Lookup(p.user, k, kind);
    if u.Some? then u
    else
      var g := Lookup(p.global, k, kind);
      if g.Some? then g else fallback
  }

  /** A typed setter (`setString`, `setInt`, ...): a copy of the user map
      with the one key replaced; nothing else changes. */
  function Set(p: Profile, cls: string, key: string, v: Value): (q: Profile)
    ensures q.nameToFile == p.nameToFile && q.userName == p.userName && q.global == p.global
    ensures GenKey(cls, key) in q.user && q.user[GenKey(cls, key)] == v
    ensures q.user.Keys == p.user.Keys + {GenKey(cls, key)}
    ensures forall k :: k in p.user && k != GenKey(cls, key) ==> q.user[k] == p.user[k]
  {
    p.(user := p.user[GenKey(cls, key) := v])
  }

  /** A getter of the matching type reads back what a setter stored,
      whatever the global map or the fallback say. */
  lemma SetThenGet(p: Profile, cls: string, key: string, v: Value, fallback: Option<Value>)
    requires fallback.Some? ==> KindOf(fallback.value) == KindOf(v)
    ensures Get(Set(p, cls, key, v), cls, key, KindOf(v), fallback) == Some(v)
  {
  }

  /** Setting one (class, key) leaves every other setting's reading as it
      was, for every type and fallback. */
  lemma SetOtherUnchanged(p: Profile, cls: string, key: string, v: Value,
                          cls2: string, key2: string, kind: Kind, fallback: Option<Value>)
    requires ':' !in cls && ':' !in cls2
    requires cls != cls2 || key != key2
    requires fallback.Some? ==> KindOf(fallback.value) == kind
    ensures Get(Set(p, cls, key, v), cls2, key2, kind, fallback) == Get(p, cls2, key2, kind, fallback)
  {
    if GenKey(cls, key) == GenKey(cls2, key2) {
      GenKeyInjective(cls, key, cls2, key2);
    }
  }

  /** A user setting shadows the global one; a global setting shows through
      only where the user has none of that type. */
  lemma GlobalShowsThrough(p: Profile, cls: string, key: string, kind: Kind, fallback: Option<Value>)
    requires fallback.Some? ==> KindOf(fallback.value) == kind
    requires Lookup(p.user, GenKey(cls, key), kind).None?
    requires Lookup(p.global, GenKey(cls, key), kind).Some?
    ensures Get(p, cls, key, kind, fallback) == Some(p.global[GenKey(cls, key)])
  {
  }

  // ------------------------------------------------ subsets and clearing

  /** The keys written by `saveProfileSubsetToFile`: those of the user map
      that start with the class name. */
  function ProfileSubset(user: PropertyMap, cls: string): (r: PropertyMap)
    ensures r.Keys <= user.Keys
    ensures forall k :: k in r ==> StartsWith(k, cls) && r[k] == user[k]
    ensures forall key :: GenKey(cls, key) in user ==> GenKey(cls, key) in r
  {
    map k | k in user && StartsWith(k, cls) :: user[k]
  }

  /** `clearProfileSubset`: the user map without the keys that start with
      the class name. The test is a bare prefix test on the name. */
  function ClearProfileSubset(user: PropertyMap, cls: string): (r: PropertyMap)
    ensures r.Keys <= user.Keys
    ensures forall k :: k in r ==> !StartsWith(k, cls) && r[k] == user[k]
    ensures forall key :: GenKey(cls, key) !in r
  {
    map k | k in user && !StartsWith(k, cls) :: user[k]
  }

  /** What is saved and what is cleared for one class split the user map:
      disjoint, and together exactly the original. */
  lemma SubsetPartition(user: PropertyMap, cls: string)
    ensures ProfileSubset(user, cls).Keys !! ClearProfileSubset(user, cls).Keys
    ensures ProfileSubset(user, cls) + ClearProfileSubset(user, cls) == user
  {
    var saved, kept := ProfileSubset(user, cls), ClearProfileSubset(user, cls);
    assert (saved + kept).Keys == user.Keys;
  }

  /** For a generated key, the bare prefix test clears exactly the settings
      of the class itself and of every class whose name extends it. */
  lemma ClearReachesExtendedNames(user: PropertyMap, cls: string, cls2: string, key: string)
    requires ':' !in cls
    ensures GenKey(cls2, key) in ClearProfileSubset(user, cls) <==>
              GenKey(cls2, key) in user && !StartsWith(cls2, cls)
  {
    var k := GenKey(cls2, key);
    if |cls| <= |cls2| {
      assert k[..|cls|] == cls2[..|cls|];
    }
  }

  /** Clearing `org.Foo` also clears the settings of `org.FooBar`. */
  lemma ClearOverreaches()
    ensures ClearProfileSubset(map[GenKey("org.Foo", "x") := Int(1), GenKey("org.FooBar", "y") := Int(2)], "org.Foo") == map[]
  {
    var user := map[GenKey("org.Foo", "x") := Int(1), GenKey("org.FooBar", "y") := Int(2)];
    assert StartsWith(GenKey("org.FooBar", "y"), "org.Foo");
    assert ClearProfileSubset(user, "org.Foo").Keys == {};
  }

  /** The clear the key layout calls for: drop the keys generated for the
      class itself, i.e. those starting with the name and a colon. */
  function ClearClassSubset(user: PropertyMap, cls: string): (r: PropertyMap)
    ensures r.Keys <= user.Keys
    ensures forall k :: k in r ==> r[k] == user[k]
  {
    map k | k in user && !StartsWith(k, cls + ":") :: user[k]
  }

  /** The prefix `cls + ":"` clears a generated key exactly when it belongs
      to `cls`; every other class keeps its settings. */
  lemma ClearClassSubsetExact(user: PropertyMap, cls: string, cls2: string, key: string)
    requires ':' !in cls && ':' !in cls2
    ensures GenKey(cls2, key) in ClearClassSubset(user, cls) <==>
              GenKey(cls2, key) in user && cls2 != cls
  {
    var k := GenKey(cls2, key);
    if StartsWith(k, cls + ":") {
      var rest := k[|cls| + 1..];
      assert k == GenKey(cls, rest);
      GenKeyInjective(cls, rest, cls2, key);
    }
  }

  /** `clearProfile`: the user map becomes empty; the rest is untouched. */
  function ClearProfile(p: Profile): (q: Profile)
    ensures |q.user| == 0
    ensures q.global == p.global && q.nameToFile == p.nameToFile && q.userName == p.userName
  {
    p.(user := map[])
  }

  /** After `clearProfile` every getter reads the global value or, failing
      that, the fallback. */
  lemma ClearProfileFallsThrough(p: Profile, cls: string, key: string, kind: Kind, fallback: Option<Value>)
    requires fallback.Some? ==> KindOf(fallback.value) == kind
    ensures Get(ClearProfile(p), cls, key, kind, fallback) ==
              if Lookup(p.global, GenKey(cls, key), kind).Some?
              then Lookup(p.global, GenKey(cls, key), kind) else fallback
  {
  }

  // ------------------------------------------------------------- users

  /** `getUserNames`: every mapped user except the global one. */
  function UserNames(p: Profile): (r: set<string>)
    ensures GlobalUser !in r
    ensures r <= p.nameToFile.Keys
    ensures forall u :: u in p.nameToFile && u != GlobalUser ==> u in r
  {
    p.nameToFile.Keys - {GlobalUser}
  }

  /** The line terminators Java's `.` does not match. */
  predicate IsLineTerminator(c: char) {
    c == '\n' || c == '\r' || c == '\U{0085}' || c == '\U{2028}' || c == '\U{2029}'
  }

  /** Group 1 of a full match of `profile-(\d+).txt`. The dot is not
      escaped, so any single character other than a line terminator may
      stand before `txt`; the match, when there is one, is unique. */
  function ProfileIndexGroup(f: string): (g: Option<string>)
    ensures g.Some? ==>
              && |g.value| >= 1 && AllDigits(g.value)
              && |f| == |g.value| + 12 && !IsLineTerminator(f[|f| - 4])
              && f == "profile-" + g.value + [f[|f| - 4]] + "txt"
  {
    if |f| >= 13 && f[..8] == "profile-" && f[|f| - 3..] == "txt"
       && !IsLineTerminator(f[|f| - 4]) && AllDigits(f[8..|f| - 4])
    then Some(f[8..|f| - 4])
    else None
  }

  /** Every string of the pattern's shape is matched, with its digits as
      the group: the converse of `ProfileIndexGroup`'s contract. */
  lemma ProfileIndexGroupMatches(d: string, x: char)
    requires |d| >= 1 && AllDigits(d) && !IsLineTerminator(x)
    ensures ProfileIndexGroup("profile-" + d + [x] + "txt") == Some(d)
  {
    var f := "profile-" + d + [x] + "txt";
    assert f[..8] == "profile-";
    assert f[|f| - 3..] == "txt";
    assert f[8..|f| - 4] == d;
  }

  /** The unescaped dot: `profile-123txt` is read as profile number 12. */
  lemma UnescapedDotAcceptsAnySeparator()
    ensures ProfileIndexGroup("profile-123txt") == Some("12")
  {
    ProfileIndexGroupMatches("12", '3');
    assert "profile-" + "12" + ['3'] + "txt" == "profile-123txt";
  }

  /** `Integer.parseInt` on a group of digits: fails above `int` range. */
  function JavaParseInt(s: string): (r: Option<int>)
    ensures r.Some? ==> 0 <= r.value <= IntMax
    ensures r.Some? <==> |s| >= 1 && AllDigits(s) && DigitsValue(s) <= IntMax
  {
    if |s| >= 1 && AllDigits(s) && DigitsValue(s) <= IntMax then Some(DigitsValue(s)) else None
  }

  /** The value of a group of digits with no upper bound. */
  function DecimalValue(s: string): (r: Option<int>)
    ensures r.Some? ==> r.value >= 0
    ensures r.Some? <==> |s| >= 1 && AllDigits(s)
  {
    if |s| >= 1 && AllDigits(s) then Some(DigitsValue(s)) else None
  }

  /** The profile number a file name contributes under a given parse. */
  function FileNumber(f: string, parse: string -> Option<int>): Option<int> {
    match ProfileIndexGroup(f)
    case None => None
    case Some(g) => parse(g)
  }

  /** `m` is the largest profile number among the mapped files, or 0 when
      there is none (the loop's initial `fileIndex`). */
  ghost predicate IsLargestIndex(nameToFile: map<string, string>, parse: string -> Option<int>, m: int) {
    && (forall u :: u in nameToFile && FileNumber(nameToFile[u], parse).Some? ==>
          FileNumber(nameToFile[u], parse).value <= m)
    && (m == 0 || exists u :: u in nameToFile && FileNumber(nameToFile[u], parse) == Some(m))
  }

  /** The scan of `addUser` over the user mapping: files that do not match
      or whose number does not parse are skipped. */
  method LargestIndex(nameToFile: map<string, string>, parse: string -> Option<int>) returns (m: int)
    requires forall s :: parse(s).Some? ==> parse(s).value >= 0
    ensures m >= 0
    ensures IsLargestIndex(nameToFile, parse, m)
  {
    m := 0;
    var rest := nameToFile.Keys;
    while rest != {}
      invariant rest <= nameToFile.Keys
      invariant m >= 0
      invariant forall u :: u in nameToFile && u !in rest && FileNumber(nameToFile[u], parse).Some? ==>
                  FileNumber(nameToFile[u], parse).value <= m
      invariant m == 0 || exists u :: u in nameToFile && FileNumber(nameToFile[u], parse) == Some(m)
      decreases rest
    {
      var u :| u in rest;
      var n := FileNumber(nameToFile[u], parse);
      if n.Some? && n.value > m {
        m := n.value;
      }
      rest := rest - {u};
    }
  }

  /** The file name `addUser` assigns for a profile number. */
  function ProfileFileName(n: int): string {
    "profile-" + IntToDecimal(n) + ".txt"
  }

  /** The name of a non-negative number is matched by the pattern and its
      group is the number's decimal spelling. */
  lemma ProfileFileNameGroup(n: nat)
    ensures ProfileIndexGroup(ProfileFileName(n)) == Some(NatToDecimal(n))
    ensures DigitsValue(NatToDecimal(n)) == n
  {
    assert ProfileFileName(n) == "profile-" + NatToDecimal(n) + ['.'] + "txt";
    ProfileIndexGroupMatches(NatToDecimal(n), '.');
    DecimalRoundTrip(n);
  }

  /** No mapped file carries the name of a number above the largest one,
      provided the parse reads that number back. */
  lemma NameAboveLargestIsFresh(nameToFile: map<string, string>, parse: string -> Option<int>, m: nat)
    requires IsLargestIndex(nameToFile, parse, m)
    requires parse(NatToDecimal(m + 1)) == Some(m + 1)
    ensures forall u :: u in nameToFile ==> nameToFile[u] != ProfileFileName(m + 1)
  {
    forall u | u in nameToFile
      ensures nameToFile[u] != ProfileFileName(m + 1)
    {
      ProfileFileNameGroup(m + 1);
    }
  }

  /** `fileIndex + 1` in Java `int` arithmetic: past `Integer.MAX_VALUE`
      it wraps to `Integer.MIN_VALUE`. */
  function NextNumber(m: int): (n: int)
    requires 0 <= m <= IntMax
    ensures m < IntMax ==> n == m + 1
    ensures m == IntMax ==> n == IntMin
  {
    WrapInt(m + 1)
  }

  /** `addUser` as written: the number is parsed as an `int` and the
      increment wraps. The new name is fresh while the largest number in use
      is below `Integer.MAX_VALUE`. */
  method AddUserAsWritten(nameToFile: map<string, string>, userName: string)
    returns (r: map<string, string>, largest: int)
    ensures IsLargestIndex(nameToFile, JavaParseInt, largest) && 0 <= largest <= IntMax
    ensures r == nameToFile[userName := ProfileFileName(NextNumber(largest))]
    ensures largest < IntMax ==> forall u :: u in nameToFile ==> nameToFile[u] != r[userName]
  {
    largest := LargestIndex(nameToFile, JavaParseInt);
    ParsedLargestFitsInt(nameToFile, largest);
    var next := NextNumber(largest);
    r := nameToFile[userName := ProfileFileName(next)];
    if largest < IntMax {
      ProfileFileNameGroup(largest + 1);
      NameAboveLargestIsFresh(nameToFile, JavaParseInt, largest);
    }
  }

  /** Numbers read with `Integer.parseInt` fit an `int`, and so does their
      largest. */
  lemma ParsedLargestFitsInt(nameToFile: map<string, string>, m: int)
    requires IsLargestIndex(nameToFile, JavaParseInt, m)
    ensures m <= IntMax
  {
    if m != 0 {
      var u :| u in nameToFile && FileNumber(nameToFile[u], JavaParseInt) == Some(m);
    }
  }

  /** `Integer.parseInt("2147483647")`, spelled out digit by digit. */
  lemma IntMaxParses()
    ensures JavaParseInt("2147483647") == Some(IntMax)
  {
    var s := "2147483647";
    DigitsStep("", '2', 0, "2");
    DigitsStep("2", '1', 2, "21");
    DigitsStep("21", '4', 21, "214");
    DigitsStep("214", '7', 214, "2147");
    DigitsStep("2147", '4', 2147, "21474");
    DigitsStep("21474", '8', 21474, "214748");
    DigitsStep("214748", '3', 214748, "2147483");
    DigitsStep("2147483", '6', 2147483, "21474836");
    DigitsStep("21474836", '4', 21474836, "214748364");
    DigitsStep("214748364", '7', 214748364, "2147483647");
  }

  /** One digit appended to a string of known value. */
  lemma DigitsStep(s: string, c: char, v: nat, t: string)
    requires AllDigits(s) && IsDigit(c) && DigitsValue(s) == v && t == s + [c]
    ensures AllDigits(t) && DigitsValue(t) == v * 10 + (c as int - '0' as int)
  {
    assert t[..|s|] == s;
  }

  /** Once `profile-2147483647.txt` is in use, two new users are given the
      same file: the increment wraps to a negative number, whose name the
      pattern does not recognise, so the largest number never moves. */
  method OverflowSharesFile(nameToFile: map<string, string>, owner: string, a: string, b: string)
    returns (r: map<string, string>)
    requires owner in nameToFile && nameToFile[owner] == "profile-2147483647.txt"
    requires a !in nameToFile && b !in nameToFile && a != b
    ensures a in r && b in r && r[a] == r[b]
  {
    IntMaxFileNumber();
    var once, m1 := AddUserAsWritten(nameToFile, a);
    LargestBounds(nameToFile, JavaParseInt, m1, owner);
    assert once[owner] == nameToFile[owner];
    var m2;
    r, m2 := AddUserAsWritten(once, b);
    LargestBounds(once, JavaParseInt, m2, owner);
  }

  /** The number of `profile-2147483647.txt` is `Integer.MAX_VALUE`. */
  lemma IntMaxFileNumber()
    ensures FileNumber("profile-2147483647.txt", JavaParseInt) == Some(IntMax)
  {
    IntMaxParses();
    ProfileIndexGroupMatches("2147483647", '.');
    assert "profile-2147483647.txt" == "profile-" + "2147483647" + ['.'] + "txt";
  }

  /** The largest number bounds the number of every mapped file. */
  lemma LargestBounds(nameToFile: map<string, string>, parse: string -> Option<int>, m: int, u: string)
    requires IsLargestIndex(nameToFile, parse, m) && u in nameToFile
    requires FileNumber(nameToFile[u], parse).Some?
    ensures FileNumber(nameToFile[u], parse).value <= m
  {
  }

  /** `addUser` as intended: numbers are read and incremented without a
      bound, so the new name is always fresh. */
  method AddUser(nameToFile: map<string, string>, userName: string)
    returns (r: map<string, string>, largest: int)
    ensures IsLargestIndex(nameToFile, DecimalValue, largest) && largest >= 0
    ensures r == nameToFile[userName := ProfileFileName(largest + 1)]
    ensures forall u :: u in nameToFile ==> nameToFile[u] != r[userName]
  {
    largest := LargestIndex(nameToFile, DecimalValue);
    r := nameToFile[userName := ProfileFileName(largest + 1)];
    ProfileFileNameGroup(largest + 1);
    NameAboveLargestIsFresh(nameToFile, DecimalValue, largest);
  }

  /** `loadUser`: an unknown user is registered through `addUser` as
      written and starts empty; the new file is numbered one past the
      largest number in use, wrapped to an `int`, so it is fresh unless that
      number is `Integer.MAX_VALUE`. A known user's map is read from its
      file, and a file that does not exist yet reads as empty. `stored`
      stands for the files' contents. */
  method LoadUser(nameToFile: map<string, string>, userName: string, stored: map<string, PropertyMap>)
    returns (mapping: map<string, string>, loaded: PropertyMap)
    ensures userName in mapping && mapping.Keys == nameToFile.Keys + {userName}
    ensures forall u :: u in nameToFile ==> mapping[u] == nameToFile[u]
    ensures userName !in nameToFile ==> loaded == map[]
    ensures userName !in nameToFile ==>
              exists m :: IsLargestIndex(nameToFile, JavaParseInt, m) && 0 <= m <= IntMax
                          && mapping[userName] == ProfileFileName(NextNumber(m))
                          && (m < IntMax ==> forall u :: u in nameToFile ==> nameToFile[u] != mapping[userName])
    ensures userName in nameToFile ==>
              loaded == if nameToFile[userName] in stored then stored[nameToFile[userName]] else map[]
  {
    if userName !in nameToFile {
      var largest;
      mapping, largest := AddUserAsWritten(nameToFile, userName);
      loaded := map[];
      return;
    }
    mapping := nameToFile;
    var file := nameToFile[userName];
    loaded := if file in stored then stored[file] else map[];
  }

  /** `setCurrentUser`: switch the name and load that user's map; the
      global map is untouched and the user is now registered. */
  method SetCurrentUser(p: Profile, userName: string, stored: map<string, PropertyMap>) returns (q: Profile)
    ensures q.userName == userName && q.global == p.global
    ensures userName in q.nameToFile && q.nameToFile.Keys == p.nameToFile.Keys + {userName}
    ensures userName !in p.nameToFile ==> q.user == map[]
    ensures forall u :: u in p.nameToFile ==> q.nameToFile[u] == p.nameToFile[u]
    ensures userName !in p.nameToFile ==>
              exists m :: IsLargestIndex(p.nameToFile, JavaParseInt, m) && 0 <= m <= IntMax
                          && q.nameToFile[userName] == ProfileFileName(NextNumber(m))
                          && (m < IntMax ==> forall u :: u in p.nameToFile ==> p.nameToFile[u] != q.nameToFile[userName])
    ensures userName in p.nameToFile ==> q.nameToFile == p.nameToFile
    ensures userName in p.nameToFile ==>
              q.user == (if p.nameToFile[userName] in stored then stored[p.nameToFile[userName]] else map[])
  {
    var mapping, loaded := LoadUser(p.nameToFile, userName, stored);
    q := Profile(mapping, userName, p.global, loaded);
  }

  /** The constructor: the global map is loaded through the same path as a
      user, then the default user becomes current. `mapping` is the user
      mapping read from disk. */
  method Init(mapping: map<string, string>, stored: map<string, PropertyMap>) returns (p: Profile)
    ensures p.userName == DefaultUser
    ensures GlobalUser in p.nameToFile && DefaultUser in p.nameToFile
    ensures p.nameToFile.Keys == mapping.Keys + {GlobalUser, DefaultUser}
    ensures DefaultUser in UserNames(p) && GlobalUser !in UserNames(p)
    ensures GlobalUser !in mapping ==> p.global == map[]
    ensures DefaultUser !in mapping ==> p.user == map[]
    ensures GlobalUser in mapping ==>
              p.global == if mapping[GlobalUser] in stored then stored[mapping[GlobalUser]] else map[]
    ensures DefaultUser in mapping ==>
              p.user == if mapping[DefaultUser] in stored then stored[mapping[DefaultUser]] else map[]
    ensures forall u :: u in mapping ==> p.nameToFile[u] == mapping[u]
    ensures GlobalUser !in mapping ==>
              exists m :: IsLargestIndex(mapping, JavaParseInt, m) && 0 <= m <= IntMax
                          && p.nameToFile[GlobalUser] == ProfileFileName(NextNumber(m))
                          && (m < IntMax ==> forall u :: u in mapping ==> mapping[u] != p.nameToFile[GlobalUser])
    ensures DefaultUser !in mapping ==>
              exists m :: IsLargestIndex(p.nameToFile - {DefaultUser}, JavaParseInt, m) && 0 <= m <= IntMax
                          && p.nameToFile[DefaultUser] == ProfileFileName(NextNumber(m))
                          && (m < IntMax ==> forall u :: u in p.nameToFile && u != DefaultUser ==>
                                                         p.nameToFile[u] != p.nameToFile[DefaultUser])
  {
    var names, global := LoadUser(mapping, GlobalUser, stored);
    p := SetCurrentUser(Profile(names, GlobalUser, global, map[]), DefaultUser, stored);
    assert DefaultUser !in mapping ==> p.nameToFile - {DefaultUser} == names;
  }
}
